=== FILE: README.md ===
# Loop-erased random walks on the integer lattice, in Dafny

This project models the sequential, integer core of the `lerw` library. The library generates random walks and loop-erased random walks (LERW) on the integer lattice ℤ^d and measures their mean length. The model covers:

- **Walk generators** (`Walks`).
  - `RandomWalkGenerator` appends `stepper(walk.back())` until the stopper accepts the walk.
  - `LoopErasedRandomWalkGenerator` keeps the walk together with a set of visited points. A fresh proposal is appended. A revisited proposal makes the generator pop the walk back to the earlier occurrence of that point (chronological loop erasure).
  - Both are generic in the point type and in the type of one random draw.
  - The stepper is a function `(last point, draw) -> point`. The draws are a finite sequence, so a run either finishes (`Done`) or runs out of draws (`OutOfDraws`).
  - The stopper also receives the number of stopper calls made before. The counting mocks of the test suite need this; real stoppers ignore it.
  - The loop-erased generator exists twice: as a functional reference (`LoopErasedFrom`) and as the source's loop with its pop loop (`LoopErasedGenerate`, `PopUntil`). A proof shows they agree.
- **Norms and stoppers** (`Norms`, `Stoppers`).
  - The L1, L2 and L∞ norms, and the conversion of `Norm` to and from strings.
  - The length stopper and the distance stoppers, including the older `L1DistanceStopper` and `L2DistanceStopper`.
  - L2 is compared squared, so everything stays in integers. The square-root value is tied to the squared comparison by a lemma.
- **Lattice points** (`Points`).
  - Point1D/2D/3D, `ArrayPoint<Dim>`, `Lattice3D`, `LatticeND<N>`, `Lattice<D>`, `APoint<D>` and `TPoint3D` are all one type: a `seq<int>` whose length is the dimension (`dim`).
  - Operations: addition, the origin, construction from a buffer (which throws on the wrong length), and the unit-direction tables, including the 8-slot tables padded with the origin.
  - The nearest-neighbour `Stepper`, which adds the table entry that a draw selects.
- **Exact-radius direction samplers** (`Signs`, `Sorting`, `L1Directions`, `FaceCounts`, `LinfDirections`). Every random draw is an explicit input.
  - `L1Direction` uses stars and bars. It draws d-1 distinct bars, sorts them, takes the adjacent differences minus one, flips one coin per zero coordinate and rejects if any of them shows 0, and then randomises the signs.
  - `LinfDirection` chooses the number k of coordinates at ±r by the face counts `A_k`. It puts ±r on k coordinates and inner values on the rest, then shuffles.
- **`compute_average_length`** (`Aggregation`): seeds are drawn in order from one master generator, and the result is the total length over N.

`Results` holds the `Option` and `Result` types. `Sequences` holds generic sequence facts (sums, permutations, distinctness).

## Model

| member | source | states |
|---|---|---|
| `Norms.L1Norm` | include/utils.hpp:44-46 | the L1 norm is 0 exactly at the origin and bounds every coordinate's absolute value |
| `Norms.L2Sq` | include/lattice.hpp:54-58 | the sum of squares is 0 exactly at the origin and bounds every coordinate's square |
| `Norms.LInftyNorm` | include/utils.hpp:52-54 | the L∞ norm bounds every coordinate's absolute value and is attained by one of them |
| `Norms.NormValueUnique` | include/utils.hpp:48-50 | the L2 value (non-negative, squaring to the sum of squares) is unique |
| `Norms.Exceeds` | include/stopper.hpp:25 | `norm<N>(p) > distance` decided on integers: for every value the norm can take on p, the test holds iff that value is strictly above the distance |
| `Norms.SquaredComparison` | include/lerw.hpp:195-202 | for the non-negative root v of s, comparing s with the squared distance decides `v > distance` whenever the distance is non-negative |
| `Norms.ExceedsIffNormAbove` | include/utils.hpp:56-78 | for every norm, the integer comparison holds iff the norm's value is strictly above the threshold, including the L2 comparison made on squares |
| `Norms.NormExamples` | tests/utils.cpp:13-19 | the norm values checked by the test suite |
| `Norms.ArrayPointL1Examples` | tests/points.cpp:119-121 | the four-dimensional L1 values checked by the test suite, including 12 for (-5, 3, 2, 2) |
| `Norms.ArrayPointL2Examples` | tests/points.cpp:123-127 | the four-dimensional L2 values checked by the test suite, including 5 for (1, 2, 2, 4) |
| `Norms.ArrayPointLInftyExamples` | tests/points.cpp:129-131 | the four-dimensional L∞ values checked by the test suite, including 4 for (-1, -2, -3, -4) |
| `Norms.NormToString` | include/utils.hpp:21-32 | every norm name starts with `L` |
| `Norms.ParseNorm` | include/utils.hpp:34-42 | parsing succeeds iff the string is exactly `L1`, `L2` or `LINFTY`; anything else is `invalid_argument` |
| `Norms.ParseNormOfNormToString` | include/utils.hpp:21-42 | parsing a norm's name gives that norm back |
| `Norms.NormToStringOfParseNorm` | include/utils.hpp:21-42 | a successfully parsed string is the name of the parsed norm |
| `Norms.ParseNormRejectsLinf` | include/utils.hpp:34-42 | the spelling `LINF` is rejected |
| `Points.Zero` | include/lattice.hpp:79-85 | the origin has the given dimension and L1 norm 0 |
| `Points.Add` | include/array_point.hpp:24-35 | the sum has the operands' dimension, and subtracting the second operand coordinate-wise gives the first |
| `Points.Construct` | include/array_point.hpp:68-79 | construction succeeds iff the buffer has exactly `dim` entries, and the point then holds the buffer's values |
| `Points.ConstructRoundTrip` | include/point.hpp:128-165 | constructing from a point's own coordinates gives the point back |
| `Points.AddZero` | include/point_array.hpp:18-34 | the origin is an identity for `+` on both sides |
| `Points.AddCommutes` | include/lattice.hpp:47-52 | `+` is commutative |
| `Points.AddAssociates` | include/point_tuple.hpp:22-26 | `+` is associative |
| `Points.SubAdd` | include/lattice.hpp:16-18 | a step added to a point is recovered by subtraction |
| `Points.PointExamples` | tests/points.cpp:15-117 | the sums, origins and constructions checked for one to four dimensions, plus the rejection of a buffer of the wrong length, which include/array_point.hpp:71-74 throws on |
| `Points.UnitDirections` | include/lattice.hpp:87-93 | the table has 2d entries, each of dimension d |
| `Points.SlotDirections` | include/point.hpp:53-70 | an N-slot table starts with the unit table and is padded with origins |
| `Points.UnitDirectionsAreUnitVectors` | include/point_array.hpp:20-26 | a point is in the table iff it has dimension d and exactly one coordinate ±1 with the others 0 |
| `Points.UnitDirectionsStepOne` | include/lerw.hpp:156-162 | every entry has L1 and squared-L2 length 1, and entries 2m and 2m+1 are opposite |
| `Points.Point1DDirections` | include/point.hpp:31-33 | the Point1D table is exactly {+1}, {-1} |
| `Points.Point2DDirections` | include/point.hpp:53-70 | the Point2D table is the four unit vectors followed by four origins |
| `Points.Point3DDirections` | include/lattice.hpp:37-40 | the Point3D/Lattice3D table is the six unit vectors followed by two origins |
| `Points.TupleDirections` | include/point_tuple.hpp:17-20 | the TPoint3D table is exactly the six unit vectors |
| `Points.LatticeStep` | include/lerw.hpp:172-174 | the stepper moves the point by exactly the selected table entry |
| `Points.LatticeStepNeighbourOrStay` | include/lerw.hpp:165-174 | a draw into the unit part of the table moves to a lattice neighbour; a draw into the padding leaves the point in place |
| `Stoppers.MakeL2DistanceStopper` | include/lerw.hpp:195-198 | the older L2 stopper stores the squared distance, which is non-negative |
| `Stoppers.Stops` | include/stopper.hpp:20-26 | `DistanceStopper<N>` stops iff the value of `norm<N>` on `walk.back()` is strictly above the distance, and the older L1 stopper likewise for the L1 norm |
| `Stoppers.AsWalkStopper` | include/stopper.hpp:11-27 | a stopper used by the generators gives the stopper's verdict on every non-empty walk |
| `Stoppers.DistanceStopperIffNormAbove` | include/stopper.hpp:20-27 | `DistanceStopper<N>` stops iff the norm of the last point is strictly greater than the distance |
| `Stoppers.AtThresholdDoesNotStop` | include/stopper.hpp:25 | a last point exactly at the distance does not stop the walk |
| `Stoppers.DistanceStopperReadsLastOnly` | include/stopper.hpp:24-26 | a distance stopper depends only on the walk's last point |
| `Stoppers.OriginNeverStops` | include/stopper.hpp:20-27 | a walk ending at the origin is never stopped by a non-negative distance |
| `Stoppers.OlderStoppersAgree` | include/lerw.hpp:186-204 | for every non-negative distance the older L1 and L2 stoppers decide exactly like `DistanceStopper<L1>` and `DistanceStopper<L2>` |
| `Stoppers.OlderL1StopperAgrees` | include/lerw.hpp:186-193 | the older L1 stopper decides like `DistanceStopper<L1>` for every distance, negative ones included |
| `Stoppers.OlderL2StopperNegativeDistance` | include/lerw.hpp:195-202 | below 0 the L2 pair differ: `DistanceStopper<L2>` stops every walk, while the older stopper, which squared the distance, acts as for its absolute value and never stops a walk at the origin |
| `Stoppers.StopperExamples` | tests/stopper.cpp:10-107 | the verdicts checked by the test suite, the three walks at the origin included |
| `Walks.PlainFrom` | include/generator.hpp:16-17 | from a given walk, the prefix is kept, each new point is the stepper's image of the one before, the stopper refused every shorter walk and accepted the result |
| `Walks.PlainGenerate` | include/generator.hpp:9-21 | the walk starts at zero, walk[i+1] is the stepper's image of walk[i] under draw i, every proper prefix was refused, the result was accepted after one stepper call per step |
| `Walks.PlainLengthStopper` | include/stopper.hpp:15-17 | with a length stopper of bound L the plain walk has exactly L+1 points after L steps |
| `Walks.Erase` | include/generator.hpp:43-46 | the cut walk is a prefix that ends at the first occurrence of the proposal |
| `Walks.Transition` | include/generator.hpp:35-46 | one iteration keeps the walk duplicate-free and mirrored by the visited set; a fresh proposal is appended and recorded; a revisited one cuts the walk back to it, and exactly the cut points leave the visited set |
| `Walks.ErasedMirror` | include/generator.hpp:43-46 | a cut walk is duplicate-free and holds the walk's points minus those cut |
| `Walks.LoopErasedFrom` | include/generator.hpp:34-47 | from any mirrored state the walk stays duplicate-free with the same first point, and is only done when the stopper accepts it |
| `Walks.LoopErasedRun` | include/generator.hpp:28-50 | the loop-erased walk is self-avoiding, starts at zero, and is only reported done when the stopper accepts it |
| `Walks.PopUntil` | include/generator.hpp:43-46 | the pop loop terminates with the walk cut back to the proposal and exactly the popped points removed from the visited set |
| `Walks.LoopErasedGenerate` | include/generator.hpp:23-51 | the source's loop computes the functional reference, and its result is self-avoiding and starts at zero |
| `Walks.LoopErasedFromLengthStopper` | include/generator.hpp:34-41 | under a length stopper the loop-erased walk never exceeds L+1 points and has exactly L+1 when done |
| `Walks.LoopErasedLengthStopper` | include/stopper.hpp:14-16 | the loop-erased loop of include/generator.hpp:34-47 under `LengthStopper{L}`, which stops once the walk holds more than L points, finishes with exactly L+1 points |
| `Walks.LoopErasedFromChain` | include/generator.hpp:34-46 | if every step stays or moves to a neighbour, the loop-erased walk is a chain of neighbours |
| `Walks.StayLeavesStateUnchanged` | include/generator.hpp:43-46 | proposing the walk's own last point changes neither the walk nor the visited set |
| `Walks.LatticeStepper` | include/lerw.hpp:165-175 | the lattice stepper applies the table entry the draw selects |
| `Walks.LatticeLoopErasedWalkIsNearestNeighbour` | include/lerw.hpp:226-262 | a loop-erased lattice walk is a self-avoiding nearest-neighbour path from the origin |
| `Walks.MockStopper` | tests/generator.cpp:17-27 | call number c of the mock stopper answers c >= maxSteps |
| `Walks.Increment` | tests/generator.cpp:29-40 | the mock stepper adds one |
| `Walks.TruncRem` | tests/generator.cpp:49 | C++'s `%` by a positive modulus: in [0, m) for a non-negative dividend and in (-m, 0] for a negative one |
| `Walks.TruncDivision` | tests/generator.cpp:49 | the truncated quotient and remainder satisfy `(a / m) * m + a % m == a` |
| `Walks.Looping` | tests/generator.cpp:42-51 | the looping mock stepper maps every point from -1 up into 0..3, and points below -1 into -3..0, as C++'s remainder does |
| `Walks.LoopingNegative` | tests/generator.cpp:49 | from -3 the looping mock goes to -2, not 2; from 3 and -1 it goes to 0 |
| `Walks.CountsUp` | tests/generator.cpp:72-80 | a walk from 0 that increases by one each step is 0, 1, ..., n-1 |
| `Walks.PlainMockWalk` | tests/generator.cpp:53-100 | the plain generator with the mocks returns [0..m] after m steps |
| `Walks.LoopErasedMockWalk` | tests/generator.cpp:108-115 | the loop-erased generator with the incrementing mock returns [0..m] |
| `Walks.LoopingMockFrom` | tests/generator.cpp:117-124 | the looping-mock run from each intermediate state finishes with [0, 1] |
| `Walks.LoopingMockWalk` | tests/generator.cpp:117-124 | the looping mock run erases the loop 1→2→3→0 and returns [0, 1] after 5 steps |
| `Walks.ZeroStepsGiveOrigin` | tests/generator.cpp:133-139 | with a mock stopper of 0 both generators return the origin alone |
| `Signs.RandomSign` | include/directions.hpp:35-40 | `random_sign` is ±1, and +1 exactly for coin 1 |
| `Signs.RandomSignSignBit` | include/directions.hpp:35-40 | a value's sign times its absolute value gives the value back |
| `Sorting.Insert` | include/directions.hpp:80 | insertion keeps the sequence sorted and adds exactly the element |
| `Sorting.Sort` | include/directions.hpp:80 | `std::sort` returns a sorted permutation of its input |
| `Sorting.SortOfSorted` | include/directions.hpp:80 | sorting a sorted sequence leaves it unchanged |
| `Sorting.SortedDistinct` | include/directions.hpp:80 | a sorted permutation of distinct values is strictly increasing |
| `L1Directions.AdjacentDifference` | include/directions.hpp:82 | `std::adjacent_difference` keeps the length; `PartialSum` undoes it, as the two inverse lemmas state |
| `L1Directions.SumShift` | include/directions.hpp:83-84 | subtracting one from each of d parts lowers the sum by d |
| `L1Directions.PartialSumOfAdjacentDifference` | include/directions.hpp:82 | the partial sums invert `adjacent_difference` |
| `L1Directions.AdjacentDifferenceOfPartialSum` | include/directions.hpp:82 | `adjacent_difference` inverts the partial sums |
| `L1Directions.SumAdjacentDifference` | include/directions.hpp:82 | the adjacent differences of a non-empty sequence sum to its last element |
| `L1Directions.Stars` | include/directions.hpp:81-84 | the stars between bars keep the length, and bars that start at 1 or later and increase strictly give no negative part |
| `L1Directions.StarsOfBarsOf` | include/directions.hpp:44-55 | turning a composition into bars and back gives the composition |
| `L1Directions.BarsOfStars` | include/directions.hpp:44-55 | turning bars into stars and back gives the bars |
| `L1Directions.StarsOfStrictBars` | include/directions.hpp:79-85 | strictly increasing bars from 1 on cut their last value minus d into d non-negative parts |
| `L1Directions.BarsOfComposition` | include/directions.hpp:79-85 | the bars of a composition of r into d parts increase strictly from 1 on and end at r+d |
| `L1Directions.SampleFrom` | include/directions.hpp:112-118 | the redraw loop fills the slots with distinct values taken from the draws |
| `L1Directions.SampleFromFails` | include/directions.hpp:112-118 | the redraw loop runs out only when the draws hold too few distinct values |
| `L1Directions.SampleFromDistinct` | include/directions.hpp:112-118 | distinct draws are taken one per slot, in order |
| `L1Directions.SampleIota` | include/directions.hpp:97-120 | `sample_iota` returns d slots, the first d-1 distinct and in [1, r+d-1], the last 0 |
| `L1Directions.SortedBars` | include/directions.hpp:79-80 | the bars are sorted and are a rearrangement of the sample with its last slot set to r+d |
| `L1Directions.SortedBarsShape` | include/directions.hpp:78-80 | the sorted bars increase strictly from 1 on and end at r+d |
| `L1Directions.GetIntegerSolution` | include/directions.hpp:75-86 | every result is a composition of r into d non-negative parts |
| `L1Directions.GetIntegerSolutionOnto` | include/directions.hpp:75-86 | every composition of r into d parts is produced by some in-range draws |
| `L1Directions.ZeroCount` | include/directions.hpp:88-95 | the number of coins flipped is at most d, and 0 iff no part is zero |
| `L1Directions.RejectForZeros` | include/directions.hpp:88-95 | one coin is flipped per zero part, and the point is rejected iff one of those coins is 0 |
| `L1Directions.NoZerosAccepted` | include/directions.hpp:88-95 | a composition without zero parts is never rejected |
| `L1Directions.ApplySigns` | include/directions.hpp:70-71 | applying signs keeps every coordinate's absolute value |
| `L1Directions.L1NormOfAbs` | include/directions.hpp:70-71 | points with the same absolute coordinates have the same L1 norm |
| `L1Directions.L1Direction` | include/directions.hpp:64-73 | every returned point has dimension d and L1 norm exactly r |
| `L1Directions.L1DirectionOnto` | include/directions.hpp:64-73 | every lattice point of the L1 sphere of radius r is returned for some draws |
| `FaceCounts.Binomial` | include/directions.hpp:185 | the binomial coefficient is 0 above n, at least 1 up to n, and 1 at n |
| `FaceCounts.Ak` | include/directions.hpp:182-187 | every face count is positive for r >= 1 |
| `FaceCounts.AkExamples` | tests/directions.cpp:49-59 | A_k is 12, 4 for the square of side 4 and 6, 12, 8 for the cube of side 2 |
| `FaceCounts.BinomialTheorem` | include/directions.hpp:185-186 | the binomial expansion of (a+b)^n sums to (a+b)^n |
| `FaceCounts.FaceCountsCoverCube` | include/directions.hpp:182-187 | the face counts over k = 0..d add up to the (2r+1)^d points of the closed cube |
| `LinfDirections.ExclusiveScan` | include/directions.hpp:172-178 | entry j of an exclusive scan is init plus the sum of the elements before j |
| `LinfDirections.InclusiveScan` | include/directions.hpp:172-178 | entry j of an inclusive scan is init plus the sum of the elements up to j |
| `LinfDirections.Weights` | include/directions.hpp:171-178 | the d weights `A_1, ..., A_d` that the `iota` and transform produce; each is at least 1 for r >= 1 |
| `LinfDirections.AkSums` | include/directions.hpp:169-180 | as written, entry j of `A_k_sums` is the sum of the weights before position j, so `A_d` is never added |
| `LinfDirections.AkSumsExamples` | tests/directions.cpp:60-63 | `A_k_sums` is {0, 12} for d=2, r=2 and {0, 6, 18} for d=3, r=1 |
| `LinfDirections.AkSumsOmitsVertices` | include/directions.hpp:169-180 | the last entry of `A_k_sums` falls short of the total weight by exactly A_d |
| `LinfDirections.WeightsCountSurface` | include/directions.hpp:126-134 | A_1 + ... + A_d equals the number of lattice points on the cube surface, (2r+1)^d - (2r-1)^d |
| `LinfDirections.ScansIncrease` | include/directions.hpp:169-180 | with r >= 1 both scans of the weights increase strictly |
| `LinfDirections.LowerBound` | include/directions.hpp:164-166 | `lower_bound` returns the first position whose entry is not below the value |
| `LinfDirections.LowerBoundUnique` | include/directions.hpp:164-166 | a position with every earlier entry below the value and its own entry not below it is the `lower_bound` |
| `LinfDirections.ChooseK` | include/directions.hpp:159-167 | as written, k is at most d-1, is 0 iff the uniform draw is 0, and otherwise places the draw in the k-th interval of the sums |
| `LinfDirections.ChooseKIff` | include/directions.hpp:159-167 | `choose_k` returns k iff the draw is 0 (k = 0) or lies in (sums[k-1], sums[k]] |
| `LinfDirections.Swap` | include/directions.hpp:155 | a swap keeps the multiset of coordinates |
| `LinfDirections.Shuffle` | include/directions.hpp:155 | the shuffle returns a permutation, and it finishes iff it is given at least d-1 positions |
| `LinfDirections.Coordinates` | include/directions.hpp:147-154 | the coordinates before the shuffle have dimension d |
| `LinfDirections.CoordinatesShape` | include/directions.hpp:147-154 | the first k coordinates are ±r and the others lie strictly inside |
| `LinfDirections.ShuffledShape` | include/directions.hpp:147-155 | after the shuffle exactly k coordinates are ±r, every coordinate is within r, and one lies strictly inside when k < d |
| `LinfDirections.LinfDirection` | include/directions.hpp:143-157 | as written, the point has exactly `choose_k` coordinates at ±r and always one strictly inside: never a vertex |
| `LinfDirections.CubePointNorm` | include/directions.hpp:143-157 | a point within r with k coordinates at ±r has L∞ norm r iff k >= 1 |
| `LinfDirections.LinfDirectionOnSurface` | include/directions.hpp:143-157 | as written, the L∞ norm is at most r, equals r iff the uniform draw is not 0, and is below r when d = 1 |
| `LinfDirections.AkInclusiveSums` | include/directions.hpp:169-180 | the intended running totals end at the total weight |
| `LinfDirections.ChooseKIntended` | include/directions.hpp:159-167 | the intended k lies in 1..d and places the draw in the k-th interval of the inclusive sums |
| `LinfDirections.ChooseKIntendedReachesAll` | include/directions.hpp:159-167 | every k in 1..d is chosen for some valid draw, vertices included |
| `LinfDirections.LinfDirectionIntended` | include/directions.hpp:126-157 | the intended sampler always returns a point with L∞ norm exactly r |
| `Aggregation.DrawSeeds` | include/lerw.hpp:281-287 | seed i is the master generator's draw after i earlier draws |
| `Aggregation.DrawSeedsPrefix` | include/lerw.hpp:281-287 | generator i gets the same seed whatever N is |
| `Aggregation.TreeSum` | include/lerw.hpp:289-291 | a reduction that splits the range in halves gives the plain sum |
| `Aggregation.Quotient` | include/lerw.hpp:293 | N copies of the quotient add up to the total, and it is non-negative |
| `Aggregation.TotalLength` | include/lerw.hpp:289-291 | the pairwise reduction of the lengths equals their plain sum in seed order, and it is non-negative |
| `Aggregation.ComputeAverageLength` | include/lerw.hpp:264-294 | the result is not a number iff N = 0; otherwise it is non-negative and N times it is the sum of the N walk lengths in seed order, i.e. it is `1.0 * total / N` |
| `Aggregation.ReductionOrderIrrelevant` | include/lerw.hpp:289-291 | any rearrangement of the lengths has the same total |
| `Aggregation.AverageLengthInterleaved` | include/lerw.hpp:281-293 | drawing each seed right before its walk gives the same mean as drawing all seeds first |

## Left out

- Floating point.
  - Norms, distances and `A_k` are exact integers or reals. The source's `double` results (the norms, `1.0 * total / N`, the `A_k` values and `A_k_sums`) are not modelled with rounding.
  - The uniform draw of `choose_k` is an exact real.
- Fixed-width integers. Coordinates (`int32_t`), the `int` accumulator of the `A_k_sums` scan and the `int` accumulator of the length reduction are unbounded, so overflow and the truncation of large `A_k` values are not modelled.
- Random number generation.
  - Every distribution is replaced by its draws as explicit inputs. Draws are taken to lie in the distribution's range.
  - Statistical properties (uniformity of the samplers, the spread of the walks) are not modelled.
  - A finite draw sequence replaces the unbounded loops: a generator or sampler that runs out of draws returns `OutOfDraws` or `None`.
- `LinfDirections.Shuffle`: `std::shuffle` is modelled as a forward Fisher–Yates pass that swaps position i with a drawn position at most i. Only the permutation property is stated, not that the library's shuffle draws the same positions.
- `L1Directions.RejectForZeros`: the coins are flipped in coordinate order. `transform_reduce` leaves the order of evaluation unspecified; this does not affect whether the point is rejected.
- `LinfDirections.ChooseK`: for d = 1 the distribution is `uniform_real_distribution{0, 0}`, whose range [0, 0) is empty. The model takes the draw to be 0, which is what a + (b - a)·U gives.
- Uniform L∞ sampling is not proved reachable. That every non-vertex surface point is produced by `LinfDirection`, or every surface point by `LinfDirectionIntended`, is not proved, because it needs every permutation to be reachable by the shuffle.
- The generic generators take the stepper as a function of the last point and one draw. The source's steppers that hold their own generator state (the `rng` member of `Stepper`) are modelled by passing the draws in.
- The hashes of the point types (`Hash`, `std::hash` specialisations), `reserve` / `expected_size`, and the choice of `unordered_set` or `flat_hash_set` are performance details with no effect on the walk. They are left out.
- The execution policy of `compute_average_length` is left out. Parallel reduction is covered only by the facts that the sum does not depend on order or grouping (`TreeSum`, `ReductionOrderIrrelevant`).
- `L2Direction`, the Pareto and Zipf step lengths, `LDStepper` and `NearestNeighborStepper` use floating-point sampling and are not part of this model. So are the command-line drivers, configuration parsing and the output formatting of walks.
- The library's naming is not consistent across files: `Norm::LINFTY` against `Norm::LINF`, and `LinfDirection` against `LinftyDirection`. The model follows the headers' `LINFTY` / `LinfDirection`; `ParseNormRejectsLinf` records that `LINF` does not parse.
- `include/generator.hpp` calls `stepper(walk.back())` without a generator, while the tests call `generator(rng)` with two-argument steppers. The model passes the draw to the stepper, which is what both spellings evidently mean.

## Findings

| source | as written | input that shows it | evidently intended | confidence | as-written member | corrected member |
|---|---|---|---|---|---|---|
| include/directions.hpp:169-180 | `A_k_sums` takes an exclusive scan of A_1..A_d, so its last entry is A_1 + ... + A_(d-1) and `choose_k` returns k in 0..d-1: A_d is never added, cube vertices (k = d) are never produced, and k = 0 (a point strictly inside the cube) comes out whenever the uniform draw is 0; for d = 1 every point is strictly inside | d = 2, r = 2: `A_k_sums` = {0, 12}, so every draw gives k <= 1 and the vertex (2, 2) is never returned; d = 1: `A_k_sums` = {0}, the draw is 0, k = 0 and the point has L∞ norm below r | running totals A_1, A_1 + A_2, ..., A_1 + ... + A_d (an inclusive scan) and k = `lower_bound` + 1, so each k in 1..d is chosen in proportion to A_k and every point has L∞ norm r, as the header comment describes | high (not executed) | `LinfDirections.LinfDirectionOnSurface` | `LinfDirections.LinfDirectionIntended` |

=== FILE: aggregation.dfy ===
/** `compute_average_length`: N generators, each built from a seed drawn in
    order from one master generator before any walk runs, and the mean of
    their walks' lengths. The master generator is a state `R` with a step
    `draw` returning a seed and the next state; building a generator from a
    seed and running it to completion is the function `lengthOf`. */
module Aggregation {
  import opened Sequences

  /** The master generator's state after `i` draws. */
  function MasterAfter<R, S>(draw: R -> (S, R), master: R, i: nat): R
  {
    if i == 0 then master else draw(MasterAfter(draw, master, i - 1)).1
  }

  /** The `generate_n` loop, run sequentially: `n` seeds, the i-th drawn from
      the master generator after i earlier draws. */
  function DrawSeeds<R, S>(draw: R -> (S, R), master: R, n: nat): (seeds: seq<S>)
    ensures |seeds| == n
    ensures forall i :: 0 <= i < n ==> seeds[i] == draw(MasterAfter(draw, master, i)).0
  {
    if n == 0 then []
    else DrawSeeds(draw, master, n - 1) + [draw(MasterAfter(draw, master, n - 1)).0]
  }

  /** Drawing more seeds does not change the earlier ones: generator i gets
      the same seed whatever N is. */
  lemma DrawSeedsPrefix<R, S>(draw: R -> (S, R), master: R, m: nat, n: nat)
    requires m <= n
    ensures DrawSeeds(draw, master, n)[..m] == DrawSeeds(draw, master, m)
  {
  }

  /** The result of the division `1.0 * total / N`: not a number for N = 0. */
  datatype Average = NotANumber | Mean(value: real)

  /** The walk lengths of the N generators, in seed order. */
  function Lengths<S>(seeds: seq<S>, lengthOf: S -> nat): (ls: seq<int>)
    ensures |ls| == |seeds|
    ensures forall i :: 0 <= i < |seeds| ==> ls[i] == lengthOf(seeds[i])
  {
    seq(|seeds|, i requires 0 <= i < |seeds| => lengthOf(seeds[i]) as int)
  }

  /** A reduction in the shape a parallel `transform_reduce` may use: split
      the range, reduce the halves, add the results. */
  function TreeSum(xs: seq<int>): (s: int)
    ensures s == Sum(xs)
    decreases |xs|
  {
    if |xs| == 0 then 0
    else if |xs| == 1 then xs[0]
    else
      var h := |xs| / 2;
      assert xs == xs[..h] + xs[h..];
      SumAppend(xs[..h], xs[h..]);
      TreeSum(xs[..h]) + TreeSum(xs[h..])
  }

  /** `compute_average_length`: the total length of the walks divided by N,
      not a number when N = 0. */
  function ComputeAverageLength<R, S>(draw: R -> (S, R), master: R, lengthOf: S -> nat, n: nat): (avg: Average)
    ensures n == 0 <==> avg.NotANumber?
    ensures avg.Mean? ==> avg.value >= 0.0
    ensures avg.Mean? ==> avg.value * (n as real) == Sum(Lengths(DrawSeeds(draw, master, n), lengthOf)) as real
  {
    if n == 0 then NotANumber
    else Mean(Quotient(TotalLength(draw, master, lengthOf, n), n))
  }

  /** The `transform_reduce` over the N generators: the walks' lengths
      reduced pairwise, which is their plain sum in seed order. */
  function TotalLength<R, S>(draw: R -> (S, R), master: R, lengthOf: S -> nat, n: nat): (total: nat)
    ensures total == Sum(Lengths(DrawSeeds(draw, master, n), lengthOf))
  {
    var ls := Lengths(DrawSeeds(draw, master, n), lengthOf);
    NonNegativeSum(ls);
    TreeSum(ls)
  }

  /** `1.0 * total / N`, exact: the real number that N copies of add up to
      the total. */
  function Quotient(total: nat, n: nat): (q: real)
    requires n > 0
    ensures q >= 0.0 && q * (n as real) == total as real
  {
    total as real / n as real
  }

  lemma {:induction false} NonNegativeSum(xs: seq<int>)
    requires forall i :: 0 <= i < |xs| ==> xs[i] >= 0
    ensures Sum(xs) >= 0
  {
    if |xs| > 0 {
      NonNegativeSum(xs[1..]);
    }
  }

  /** The total does not depend on the order in which the lengths are
      added: any rearrangement of them has the same sum. */
  lemma ReductionOrderIrrelevant(lengths: seq<int>, order: seq<int>)
    requires multiset(order) == multiset(lengths)
    ensures TreeSum(order) == TreeSum(lengths)
  {
    SumPermutation(order, lengths);
  }

  /** The same computation done one generator at a time: draw a seed, run
      the walk, add its length. Since the walks never touch the master
      generator, interleaving the draws with the walks gives the same mean
      as drawing all seeds first. */
  method AverageLengthInterleaved<R, S>(draw: R -> (S, R), master: R, lengthOf: S -> nat, n: nat)
    returns (avg: Average)
    ensures avg == ComputeAverageLength(draw, master, lengthOf, n)
  {
    if n == 0 {
      return NotANumber;
    }
    var state := master;
    var total: nat := 0;
    var i := 0;
    ghost var seeds := DrawSeeds(draw, master, n);
    ghost var ls := Lengths(seeds, lengthOf);
    while i < n
      invariant 0 <= i <= n
      invariant state == MasterAfter(draw, master, i)
      invariant total == Sum(ls[..i])
    {
      var pair := draw(state);
      assert pair.0 == seeds[i];
      SumSnoc(ls, i);
      total := total + lengthOf(pair.0);
      state := pair.1;
      i := i + 1;
    }
    assert ls[..n] == ls;
    assert total == TotalLength(draw, master, lengthOf, n);
    avg := Mean(Quotient(total, n));
  }
}

=== FILE: facecounts.dfy ===
/** The face counts `A_k` of the L∞ sampler: how many lattice points of the
    surface of the cube of radius r in d dimensions have exactly k
    coordinates at ±r. Summed over every k, by the binomial theorem, they
    count every lattice point of the closed cube. */
module FaceCounts {

  /** The binomial coefficient, by Pascal's rule. */
  function Binomial(n: nat, k: nat): (c: nat)
    ensures k > n ==> c == 0
    ensures k <= n ==> c >= 1
    ensures k == n ==> c == 1
  {
    if k == 0 then 1
    else if n == 0 then 0
    else Binomial(n - 1, k - 1) + Binomial(n - 1, k)
  }

  function Pow(b: int, e: nat): (p: int)
    ensures b > 0 ==> p > 0
  {
    if e == 0 then 1 else b * Pow(b, e - 1)
  }

  /** `A_k`: the number of lattice points of the radius-`r` cube surface with
      exactly k coordinates at ±r: which k coordinates, their signs, and one
      of the 2r - 1 inner values for each other coordinate. */
  function Ak(d: nat, k: nat, r: int): (a: int)
    requires k <= d
    ensures r >= 1 ==> a > 0
  {
    Binomial(d, k) * Pow(2, k) * Pow(2 * r - 1, d - k)
  }

  /** The face counts of the square of side 4 and of the cube of side 2. */
  lemma AkExamples()
    ensures Ak(2, 1, 2) == 12 && Ak(2, 2, 2) == 4
    ensures Ak(3, 1, 1) == 6 && Ak(3, 2, 1) == 12 && Ak(3, 3, 1) == 8
  {
    assert Binomial(2, 1) == 2;
    assert Binomial(3, 1) == 3;
    assert Binomial(3, 2) == 3;
  }

  // ---------------------------------------------------------------------
  // The binomial theorem

  /** The k-th term of the expansion of (a + b)^n, zero beyond k = n. */
  function Term(n: nat, k: nat, a: int, b: int): int
  {
    if k > n then 0 else Binomial(n, k) * Pow(a, k) * Pow(b, n - k)
  }

  /** The first m terms of the expansion of (a + b)^n. */
  function Terms(n: nat, m: nat, a: int, b: int): int
  {
    if m == 0 then 0 else Terms(n, m - 1, a, b) + Term(n, m - 1, a, b)
  }

  /** Pascal's rule on the terms of the expansion. */
  lemma TermPascal(n: nat, k: nat, a: int, b: int)
    requires n >= 1 && k >= 1
    ensures Term(n, k, a, b) == a * Term(n - 1, k - 1, a, b) + b * Term(n - 1, k, a, b)
  {
    if k < n {
      var c1, c2 := Binomial(n - 1, k - 1), Binomial(n - 1, k);
      var x, y := Pow(a, k - 1), Pow(b, n - 1 - k);
      assert Pow(a, k) == a * x;
      assert Pow(b, n - k) == b * y;
      calc {
        Term(n, k, a, b);
        (c1 + c2) * (a * x) * (b * y);
        a * (c1 * x * (b * y)) + b * (c2 * (a * x) * y);
      }
    } else if k == n {
      assert Pow(a, k) == a * Pow(a, k - 1);
    }
  }

  /** Splitting every term by Pascal's rule splits their partial sums. */
  lemma {:induction false} TermsPascal(n: nat, m: nat, a: int, b: int)
    requires n >= 1
    ensures Terms(n, m + 1, a, b) == a * Terms(n - 1, m, a, b) + b * Terms(n - 1, m + 1, a, b)
  {
    if m == 0 {
      assert Term(n, 0, a, b) == Pow(b, n) == b * Pow(b, n - 1);
      assert Term(n - 1, 0, a, b) == Pow(b, n - 1);
      assert Terms(n - 1, 0, a, b) == 0;
    } else {
      TermsPascal(n, m - 1, a, b);
      TermPascal(n, m, a, b);
      var s0, t0 := Terms(n - 1, m - 1, a, b), Term(n - 1, m - 1, a, b);
      var s1, t1 := Terms(n - 1, m, a, b), Term(n - 1, m, a, b);
      assert s1 == s0 + t0 && Terms(n - 1, m + 1, a, b) == s1 + t1;
      Regroup(a, b, s0, t0, s1, t1);
    }
  }

  lemma Regroup(a: int, b: int, s0: int, t0: int, s1: int, t1: int)
    ensures (a * s0 + b * s1) + (a * t0 + b * t1) == a * (s0 + t0) + b * (s1 + t1)
  {
  }

  /** The binomial theorem: the n + 1 terms add up to (a + b)^n. */
  lemma {:induction false} BinomialTheorem(n: nat, a: int, b: int)
    ensures Terms(n, n + 1, a, b) == Pow(a + b, n)
  {
    if n >= 1 {
      TermsPascal(n, n, a, b);
      BinomialTheorem(n - 1, a, b);
      assert Terms(n - 1, n + 1, a, b) == Terms(n - 1, n, a, b);
    }
  }

  /** The face counts are the terms of the expansion of (2 + (2r - 1))^d, so
      all of them together count the (2r + 1)^d lattice points of the closed
      cube, and those with k >= 1 count its surface: the (2r + 1)^d points
      less the (2r - 1)^d strictly inside. */
  lemma {:induction false} FaceCountsCoverCube(d: nat, r: int)
    ensures Terms(d, d + 1, 2, 2 * r - 1) == Pow(2 * r + 1, d)
    ensures forall k :: 0 <= k <= d ==> Term(d, k, 2, 2 * r - 1) == Ak(d, k, r)
    ensures Ak(d, 0, r) == Pow(2 * r - 1, d)
  {
    BinomialTheorem(d, 2, 2 * r - 1);
  }
}

=== FILE: l1directions.dfy ===
/** `L1Direction`: a lattice point on the surface of the L1 ball of radius
    `r` in `d` dimensions, by stars and bars. Every random draw is an explicit
    input: the bar positions drawn by `sample_iota` (redraws included), the
    coins `reject_for_zeros` flips for zero coordinates, and the sign coins. */
module L1Directions {
  import opened Results
  import opened Sequences
  import opened Sorting
  import opened Norms
  import opened Points
  import opened Signs

  // ---------------------------------------------------------------------
  // Adjacent differences and their inverse

  /** `std::adjacent_difference`: the first element, then every element
      minus its predecessor. */
  function AdjacentDifference(s: seq<int>): (t: seq<int>)
    ensures |t| == |s|
  {
    seq(|s|, i requires 0 <= i < |s| => if i == 0 then s[0] else s[i] - s[i - 1])
  }

  /** `std::partial_sum`: entry i is the sum of the first i + 1 elements. */
  function PartialSum(s: seq<int>): (t: seq<int>)
    ensures |t| == |s|
  {
    seq(|s|, i requires 0 <= i < |s| => Sum(s[..i + 1]))
  }

  /** Every element plus `c`. */
  function Shift(s: seq<int>, c: int): (t: seq<int>)
    ensures |t| == |s|
  {
    seq(|s|, i requires 0 <= i < |s| => s[i] + c)
  }

  lemma {:induction false} SumShift(s: seq<int>, c: int)
    ensures Sum(Shift(s, c)) == Sum(s) + c * |s|
  {
    if |s| > 0 {
      assert Shift(s, c)[1..] == Shift(s[1..], c);
      SumShift(s[1..], c);
    }
  }

  lemma ShiftShift(s: seq<int>, c: int)
    ensures Shift(Shift(s, c), -c) == s
  {
  }

  /** A prefix of the adjacent differences sums to the element it ends at. */
  lemma {:induction false} SumAdjacentPrefix(s: seq<int>, i: nat)
    requires i < |s|
    ensures Sum(AdjacentDifference(s)[..i + 1]) == s[i]
  {
    var t := AdjacentDifference(s);
    if i == 0 {
      assert t[..1] == [s[0]];
    } else {
      assert t[..i + 1] == t[..i] + [t[i]];
      SumAppend(t[..i], [t[i]]);
      SumAdjacentPrefix(s, i - 1);
    }
  }

  /** Partial sums undo adjacent differences. */
  lemma PartialSumOfAdjacentDifference(s: seq<int>)
    ensures PartialSum(AdjacentDifference(s)) == s
  {
    forall i | 0 <= i < |s|
      ensures PartialSum(AdjacentDifference(s))[i] == s[i]
    {
      SumAdjacentPrefix(s, i);
    }
  }

  /** Adjacent differences undo partial sums. */
  lemma AdjacentDifferenceOfPartialSum(s: seq<int>)
    ensures AdjacentDifference(PartialSum(s)) == s
  {
    forall i | 0 <= i < |s|
      ensures AdjacentDifference(PartialSum(s))[i] == s[i]
    {
      assert Sum([s[i]]) == s[i] by {
        assert [s[i]][1..] == [];
      }
      if i == 0 {
        assert s[..1] == [s[0]];
      } else {
        assert s[..i + 1] == s[..i] + [s[i]];
        SumAppend(s[..i], [s[i]]);
      }
    }
  }

  /** The adjacent differences of a non-empty sequence sum to its last
      element. */
  lemma SumAdjacentDifference(s: seq<int>)
    requires |s| > 0
    ensures Sum(AdjacentDifference(s)) == Last(s)
  {
    SumAdjacentPrefix(s, |s| - 1);
    assert AdjacentDifference(s)[..|s|] == AdjacentDifference(s);
  }

  // ---------------------------------------------------------------------
  // Stars and bars

  /** The stars between sorted bar positions: each adjacent difference minus
      the bar itself. */
  function Stars(bars: seq<int>): (parts: seq<int>)
    ensures |parts| == |bars|
    ensures |bars| > 0 && bars[0] >= 1 && (forall i :: 0 < i < |bars| ==> bars[i - 1] < bars[i])
      ==> forall i :: 0 <= i < |parts| ==> parts[i] >= 0
  {
    Shift(AdjacentDifference(bars), -1)
  }

  /** The bar positions of a composition: bar i sits after the first i + 1
      parts and the i bars before it. */
  function BarsOf(parts: seq<int>): (bars: seq<int>)
    ensures |bars| == |parts|
  {
    PartialSum(Shift(parts, 1))
  }

  lemma StarsOfBarsOf(parts: seq<int>)
    ensures Stars(BarsOf(parts)) == parts
  {
    AdjacentDifferenceOfPartialSum(Shift(parts, 1));
    ShiftShift(parts, 1);
  }

  lemma BarsOfStars(bars: seq<int>)
    ensures BarsOf(Stars(bars)) == bars
  {
    ShiftShift(AdjacentDifference(bars), -1);
    PartialSumOfAdjacentDifference(bars);
  }

  /** A composition of `r` into `d` parts: `d` non-negative integers
      summing to `r`. */
  predicate IsComposition(parts: seq<int>, r: int, d: nat)
  {
    |parts| == d && (forall i :: 0 <= i < d ==> parts[i] >= 0) && Sum(parts) == r
  }

  /** Strictly increasing bars starting at 1 or later cut `Last(bars) - |bars|`
      into non-negative parts. */
  lemma StarsOfStrictBars(bars: seq<int>)
    requires |bars| > 0 && StrictlySorted(bars) && bars[0] >= 1
    ensures IsComposition(Stars(bars), Last(bars) - |bars|, |bars|)
  {
    SumShift(AdjacentDifference(bars), -1);
    SumAdjacentDifference(bars);
  }

  /** The bars of a composition of `r` into `d` parts are strictly
      increasing, start at 1 or later, and end at `r + d`. */
  lemma BarsOfComposition(parts: seq<int>, r: int, d: nat)
    requires d > 0 && IsComposition(parts, r, d)
    ensures StrictlySorted(BarsOf(parts)) && BarsOf(parts)[0] >= 1
    ensures Last(BarsOf(parts)) == r + d
  {
    var ones := Shift(parts, 1);
    var bars := BarsOf(parts);
    AdjacentDifferenceOfPartialSum(ones);
    assert forall i :: 0 < i < d ==> bars[i] - bars[i - 1] >= 1 by {
      forall i | 0 < i < d
        ensures bars[i] - bars[i - 1] >= 1
      {
        assert AdjacentDifference(bars)[i] == ones[i];
      }
    }
    assert bars[0] == ones[0] by {
      assert AdjacentDifference(bars)[0] == ones[0];
    }
    StrictFromSteps(bars);
    SumShift(parts, 1);
    assert ones[..d] == ones;
  }

  /** Steps of at least one between neighbours make a sequence strictly
      increasing. */
  lemma {:induction false} StrictFromSteps(s: seq<int>)
    requires forall i :: 0 < i < |s| ==> s[i] - s[i - 1] >= 1
    ensures StrictlySorted(s)
  {
    if |s| > 1 {
      var t := s[..|s| - 1];
      assert forall i :: 0 < i < |t| ==> t[i] - t[i - 1] >= 1;
      StrictFromSteps(t);
      forall i, j | 0 <= i < j < |s|
        ensures s[i] < s[j]
      {
        if j < |s| - 1 {
          assert s[i] == t[i] && s[j] == t[j];
        } else if i < |s| - 2 {
          assert s[i] == t[i] && t[|s| - 2] == s[|s| - 2];
        }
      }
    }
  }

  // ---------------------------------------------------------------------
  // sample_iota

  /** The fill loop of `sample_iota`: slot by slot, keep drawing until the
      draw differs from every slot filled so far. `None` when the draws run
      out first. */
  function SampleFrom(filled: seq<int>, want: nat, draws: seq<int>): (r: Option<seq<int>>)
    requires |filled| <= want && NoDup(filled)
    ensures r.Some? ==> |r.value| == want && r.value[..|filled|] == filled && NoDup(r.value)
    ensures r.Some? ==> forall i :: |filled| <= i < want ==> r.value[i] in draws
    decreases |draws|
  {
    if |filled| == want then Some(filled)
    else if |draws| == 0 then None
    else if draws[0] in filled then SampleFrom(filled, want, draws[1..])
    else
      var r := SampleFrom(filled + [draws[0]], want, draws[1..]);
      assert r.Some? ==> r.value[..|filled|] == (filled + [draws[0]])[..|filled|];
      r
  }

  /** The fill loop fails only when the filled slots and the draws together
      hold fewer distinct values than slots are wanted. */
  lemma {:induction false} SampleFromFails(filled: seq<int>, want: nat, draws: seq<int>)
    requires |filled| <= want && NoDup(filled)
    requires SampleFrom(filled, want, draws).None?
    ensures |Elems(filled + draws)| < want
    decreases |draws|
  {
    if |draws| == 0 {
      assert filled + draws == filled;
      ElemsCard(filled);
    } else if draws[0] in filled {
      SampleFromFails(filled, want, draws[1..]);
      assert Elems(filled + draws) == Elems(filled + draws[1..]);
    } else {
      assert NoDup(filled + [draws[0]]);
      SampleFromFails(filled + [draws[0]], want, draws[1..]);
      assert filled + draws == (filled + [draws[0]]) + draws[1..];
    }
  }

  /** Distinct draws are taken as they come, one per slot. */
  lemma {:induction false} SampleFromDistinct(filled: seq<int>, want: nat, draws: seq<int>)
    requires |filled| <= want && |filled| + |draws| == want
    requires NoDup(filled) && NoDup(filled + draws)
    ensures SampleFrom(filled, want, draws) == Some(filled + draws)
    decreases |draws|
  {
    if |draws| == 0 {
      assert filled + draws == filled;
    } else {
      assert draws[0] == (filled + draws)[|filled|];
      forall k | 0 <= k < |filled|
        ensures filled[k] != draws[0]
      {
        assert filled[k] == (filled + draws)[k];
      }
      assert filled + draws == (filled + [draws[0]]) + draws[1..];
      assert NoDup(filled + [draws[0]]) by {
        assert filled + [draws[0]] == (filled + draws)[..|filled| + 1];
      }
      SampleFromDistinct(filled + [draws[0]], want, draws[1..]);
    }
  }

  /** Every bar draw of `uniform_int_distribution{1, r + d - 1}`. */
  predicate BarDrawsInRange(r: int, d: nat, draws: seq<int>)
  {
    forall i :: 0 <= i < |draws| ==> 1 <= draws[i] <= r + d - 1
  }

  /** `sample_iota`: `d` slots, the first `d - 1` filled with distinct values
      drawn from [1, r + d - 1], the last left at 0. */
  function SampleIota(r: int, d: nat, draws: seq<int>): (s: Option<seq<int>>)
    requires d >= 1 && BarDrawsInRange(r, d, draws)
    ensures s.Some? ==> |s.value| == d && s.value[d - 1] == 0 && NoDup(s.value[..d - 1])
    ensures s.Some? ==> forall i :: 0 <= i < d - 1 ==> 1 <= s.value[i] <= r + d - 1
  {
    match SampleFrom([], d - 1, draws)
    case None => None
    case Some(bars) =>
      assert forall i :: 0 <= i < d - 1 ==> bars[i] in draws;
      assert (bars + [0])[..d - 1] == bars;
      Some(bars + [0])
  }

  // ---------------------------------------------------------------------
  // get_integer_solution

  /** The bars in the order `std::sort` leaves them: the sample with its
      last slot set to `r + d`. */
  function SortedBars(r: int, d: nat, sample: seq<int>): (bars: seq<int>)
    requires d >= 1 && |sample| == d
    ensures Sorted(bars) && multiset(bars) == multiset(sample[d - 1 := r + d])
  {
    Sort(sample[d - 1 := r + d])
  }

  /** The sample with its last slot set to `r + d` holds distinct values
      in [1, r + d], `r + d` among them. */
  lemma UpdatedSample(r: int, d: nat, sample: seq<int>)
    requires d >= 1 && |sample| == d && NoDup(sample[..d - 1])
    requires forall i :: 0 <= i < d - 1 ==> 1 <= sample[i] <= r + d - 1
    requires r >= 0
    ensures var u := sample[d - 1 := r + d];
      NoDup(u) && (forall i :: 0 <= i < d ==> 1 <= u[i] <= r + d) && r + d in multiset(u)
  {
    var u := sample[d - 1 := r + d];
    assert u[d - 1] == r + d;
    forall i, j | 0 <= i < j < d
      ensures u[i] != u[j]
    {
      if j < d - 1 {
        assert u[i] == sample[..d - 1][i] && u[j] == sample[..d - 1][j];
      }
    }
  }

  /** A sorted rearrangement of values in [lo, hi] that include `hi` ends
      at `hi`, and stays within [lo, hi]. */
  lemma SortedWithin(u: seq<int>, t: seq<int>, lo: int, hi: int)
    requires multiset(t) == multiset(u) && Sorted(t) && |t| > 0
    requires forall i :: 0 <= i < |u| ==> lo <= u[i] <= hi
    requires hi in multiset(u)
    ensures forall i :: 0 <= i < |t| ==> lo <= t[i] <= hi
    ensures Last(t) == hi
  {
    forall i | 0 <= i < |t|
      ensures lo <= t[i] <= hi
    {
      assert t[i] in multiset(u);
    }
    assert hi in multiset(t);
    var k :| 0 <= k < |t| && t[k] == hi;
    assert t[k] <= Last(t);
  }

  /** Sorting `d - 1` distinct bars from [1, r + d - 1] together with the
      bar `r + d` gives strictly increasing bars from 1 on that end at
      `r + d`. */
  lemma SortedBarsShape(r: int, d: nat, sample: seq<int>)
    requires d >= 1 && |sample| == d && NoDup(sample[..d - 1])
    requires forall i :: 0 <= i < d - 1 ==> 1 <= sample[i] <= r + d - 1
    requires r >= 0
    ensures var bars := SortedBars(r, d, sample);
      |bars| == d && StrictlySorted(bars) && bars[0] >= 1 && Last(bars) == r + d
  {
    var u := sample[d - 1 := r + d];
    UpdatedSample(r, d, sample);
    SortedDistinct(u, Sort(u));
    SortedWithin(u, Sort(u), 1, r + d);
  }

  /** `get_integer_solution`: the sorted bars' adjacent differences minus
      one. Whatever bars were drawn, the result is a composition of `r`
      into `d` parts. */
  function GetIntegerSolution(r: int, d: nat, draws: seq<int>): (parts: Option<seq<int>>)
    requires d >= 1 && r >= 0 && BarDrawsInRange(r, d, draws)
    ensures parts.Some? ==> IsComposition(parts.value, r, d)
  {
    match SampleIota(r, d, draws)
    case None => None
    case Some(sample) =>
      SortedBarsShape(r, d, sample);
      StarsOfStrictBars(SortedBars(r, d, sample));
      Some(Stars(SortedBars(r, d, sample)))
  }

  /** The bar draws that make `get_integer_solution` produce a given
      composition: its first `d - 1` bar positions. */
  function BarDrawsFor(parts: seq<int>): (draws: seq<int>)
    requires |parts| >= 1
  {
    BarsOf(parts)[..|parts| - 1]
  }

  /** The bar draws of a composition are distinct, in range, and followed
      by the bar `r + d` they are its sorted bars. */
  lemma BarDrawsForShape(parts: seq<int>, r: int, d: nat)
    requires d >= 1 && r >= 0 && IsComposition(parts, r, d)
    ensures var draws := BarDrawsFor(parts);
      BarDrawsInRange(r, d, draws) && NoDup(draws) && |draws| == d - 1
      && draws + [r + d] == BarsOf(parts) && Sorted(BarsOf(parts))
  {
    var bars := BarsOf(parts);
    BarsOfComposition(parts, r, d);
    assert bars[..d - 1] + [r + d] == bars;
  }

  /** Distinct bar draws, exactly one per slot, fill the slots in order. */
  lemma SampleIotaOfDistinct(r: int, d: nat, draws: seq<int>)
    requires d >= 1 && |draws| == d - 1 && NoDup(draws) && BarDrawsInRange(r, d, draws)
    ensures SampleIota(r, d, draws) == Some(draws + [0])
  {
    assert [] + draws == draws;
    SampleFromDistinct([], d - 1, draws);
  }

  /** Every composition of `r` into `d` parts is produced, by the draws
      `BarDrawsFor`: the stars-and-bars map is onto. */
  lemma GetIntegerSolutionOnto(parts: seq<int>, r: int, d: nat)
    requires d >= 1 && r >= 0 && IsComposition(parts, r, d)
    ensures BarDrawsInRange(r, d, BarDrawsFor(parts))
    ensures GetIntegerSolution(r, d, BarDrawsFor(parts)) == Some(parts)
  {
    var draws := BarDrawsFor(parts);
    BarDrawsForShape(parts, r, d);
    SampleIotaOfDistinct(r, d, draws);
    assert (draws + [0])[d - 1 := r + d] == draws + [r + d];
    SortOfSorted(BarsOf(parts));
    StarsOfBarsOf(parts);
  }

  // ---------------------------------------------------------------------
  // reject_for_zeros

  /** The number of zero coordinates: the number of coins `reject_for_zeros`
      flips. */
  function ZeroCount(parts: seq<int>): (n: nat)
    ensures n <= |parts|
    ensures n == 0 <==> forall i :: 0 <= i < |parts| ==> parts[i] != 0
  {
    if |parts| == 0 then 0
    else (if parts[0] == 0 then 1 else 0) + ZeroCount(parts[1..])
  }

  /** `reject_for_zeros`: a coin is flipped for every zero coordinate, in
      order and without short-cutting, and the point is rejected when any of
      those coins shows 0. `None` when the coins run out. */
  function RejectForZeros(parts: seq<int>, coins: seq<Bit>): (reject: Option<bool>)
    ensures reject.Some? <==> ZeroCount(parts) <= |coins|
    ensures reject.Some? ==>
      (reject.value <==> exists j :: 0 <= j < ZeroCount(parts) && coins[j] == 0)
  {
    if |parts| == 0 then Some(false)
    else if parts[0] != 0 then RejectForZeros(parts[1..], coins)
    else if |coins| == 0 then None
    else match RejectForZeros(parts[1..], coins[1..])
      case None => None
      case Some(rest) =>
        assert rest <==> exists j :: 1 <= j < ZeroCount(parts) && coins[j] == 0 by {
          if rest {
            var j :| 0 <= j < ZeroCount(parts[1..]) && coins[1..][j] == 0;
            assert coins[j + 1] == 0;
          }
        }
        Some(coins[0] == 0 || rest)
  }

  /** A composition without zero parts is never rejected, whatever the
      coins. */
  lemma NoZerosAccepted(parts: seq<int>, coins: seq<Bit>)
    requires forall i :: 0 <= i < |parts| ==> parts[i] != 0
    ensures RejectForZeros(parts, coins) == Some(false)
  {
  }

  // ---------------------------------------------------------------------
  // The sampler

  /** The draws of one round of the rejection loop: the bar draws for
      `get_integer_solution` and the coins for `reject_for_zeros`. */
  datatype L1Attempt = L1Attempt(bars: seq<int>, coins: seq<Bit>)

  predicate AttemptsInRange(r: int, d: nat, attempts: seq<L1Attempt>)
  {
    forall k :: 0 <= k < |attempts| ==> BarDrawsInRange(r, d, attempts[k].bars)
  }

  /** The sign loop: coordinate i is multiplied by `random_sign` of coin i. */
  function ApplySigns(parts: seq<int>, signs: seq<Bit>): (p: seq<int>)
    requires |signs| >= |parts|
    ensures |p| == |parts|
    ensures forall i :: 0 <= i < |p| ==> Abs(p[i]) == Abs(parts[i])
  {
    seq(|parts|, i requires 0 <= i < |parts| => RandomSign(signs[i]) * parts[i])
  }

  /** The L1 norm only sees absolute values. */
  lemma {:induction false} L1NormOfAbs(a: seq<int>, b: seq<int>)
    requires |a| == |b| && forall i :: 0 <= i < |a| ==> Abs(a[i]) == Abs(b[i])
    ensures L1Norm(a) == L1Norm(b)
  {
    if |a| > 0 {
      L1NormOfAbs(a[1..], b[1..]);
    }
  }

  /** On non-negative coordinates the L1 norm is the plain sum. */
  lemma {:induction false} L1NormOfNonNegative(a: seq<int>)
    requires forall i :: 0 <= i < |a| ==> a[i] >= 0
    ensures L1Norm(a) == Sum(a)
  {
    if |a| > 0 {
      L1NormOfNonNegative(a[1..]);
    }
  }

  /** `L1Direction::operator()`: draw compositions until one survives the
      zero rejection, then randomise the signs. A returned point lies on the
      L1 sphere of radius `r`; `None` when the draws run out. */
  function L1Direction(r: int, d: nat, attempts: seq<L1Attempt>, signs: seq<Bit>): (p: Option<Point>)
    requires d >= 1 && r >= 0 && AttemptsInRange(r, d, attempts)
    ensures p.Some? ==> |p.value| == d && L1Norm(p.value) == r
    decreases |attempts|
  {
    if |attempts| == 0 then None
    else match GetIntegerSolution(r, d, attempts[0].bars)
      case None => None
      case Some(parts) =>
        match RejectForZeros(parts, attempts[0].coins)
        case None => None
        case Some(true) => L1Direction(r, d, attempts[1..], signs)
        case Some(false) =>
          if |signs| < d then None
          else
            L1NormOfAbs(ApplySigns(parts, signs), parts);
            L1NormOfNonNegative(parts);
            Some(ApplySigns(parts, signs))
  }

  /** The absolute values of the coordinates. */
  function AbsAll(p: seq<int>): (a: seq<int>)
    ensures |a| == |p| && forall i :: 0 <= i < |p| ==> a[i] == Abs(p[i])
  {
    seq(|p|, i requires 0 <= i < |p| => Abs(p[i]))
  }

  /** The absolute values of a point form a composition of its L1 norm. */
  lemma AbsAllComposition(p: seq<int>)
    ensures IsComposition(AbsAll(p), L1Norm(p), |p|)
  {
    L1NormOfAbs(AbsAll(p), p);
    L1NormOfNonNegative(AbsAll(p));
  }

  /** Coins that all show 1 never reject. */
  lemma OnesNeverReject(parts: seq<int>, coins: seq<Bit>)
    requires |coins| >= |parts| && forall j :: 0 <= j < |coins| ==> coins[j] == 1
    ensures RejectForZeros(parts, coins) == Some(false)
  {
  }

  /** The signs of a point's coordinates applied to its absolute values
      give the point back. */
  lemma SignsRestore(p: seq<int>)
    ensures ApplySigns(AbsAll(p), seq(|p|, i requires 0 <= i < |p| => SignBit(p[i]))) == p
  {
    forall i | 0 <= i < |p|
      ensures ApplySigns(AbsAll(p), seq(|p|, i requires 0 <= i < |p| => SignBit(p[i])))[i] == p[i]
    {
      RandomSignSignBit(p[i]);
    }
  }

  /** An accepted first attempt decides the result. */
  lemma L1DirectionAccepts(r: int, d: nat, attempts: seq<L1Attempt>, signs: seq<Bit>, parts: seq<int>)
    requires d >= 1 && r >= 0 && AttemptsInRange(r, d, attempts) && |attempts| > 0 && |signs| >= d
    requires GetIntegerSolution(r, d, attempts[0].bars) == Some(parts)
    requires RejectForZeros(parts, attempts[0].coins) == Some(false)
    ensures L1Direction(r, d, attempts, signs) == Some(ApplySigns(parts, signs))
  {
  }

  /** Every lattice point on the L1 sphere of radius `r` is produced: with
      the bars of its absolute values, coins that never reject and the signs
      of its coordinates, the sampler returns exactly that point. */
  lemma L1DirectionOnto(r: int, d: nat, p: Point)
    requires d >= 1 && |p| == d && L1Norm(p) == r
    ensures var attempt := L1Attempt(BarDrawsFor(AbsAll(p)), seq(d, _ => 1));
      AttemptsInRange(r, d, [attempt])
      && L1Direction(r, d, [attempt], seq(d, i requires 0 <= i < d => SignBit(p[i]))) == Some(p)
  {
    var parts := AbsAll(p);
    var coins: seq<Bit> := seq(d, _ => 1);
    var signs := seq(d, i requires 0 <= i < d => SignBit(p[i]));
    AbsAllComposition(p);
    GetIntegerSolutionOnto(parts, r, d);
    OnesNeverReject(parts, coins);
    var attempt := L1Attempt(BarDrawsFor(parts), coins);
    L1DirectionAccepts(r, d, [attempt], signs, parts);
    SignsRestore(p);
  }
}

=== FILE: linfdirections.dfy ===
/** `LinfDirection`: a lattice point on the surface of the L∞ ball (the cube)
    of radius `r` in `d` dimensions. The number k of coordinates at ±r is
    chosen by weight, those coordinates get random signs, the others get
    values in [1 - r, r - 1], and the coordinates are shuffled. Every random
    draw is an explicit input. */
module LinfDirections {
  import opened Results
  import opened Sequences
  import opened Norms
  import opened Points
  import opened Signs
  import opened FaceCounts

  // ---------------------------------------------------------------------
  // Scans

  /** `std::exclusive_scan` with `+`: entry j is `init` plus the elements
      before position j. */
  function ExclusiveScan(xs: seq<int>, init: int): (s: seq<int>)
    ensures |s| == |xs|
    ensures forall j :: 0 <= j < |xs| ==> s[j] == init + Sum(xs[..j])
  {
    if |xs| == 0 then []
    else
      var rest := ExclusiveScan(xs[1..], init + xs[0]);
      assert forall j :: 1 <= j < |xs| ==> Sum(xs[..j]) == xs[0] + Sum(xs[1..][..j - 1]) by {
        forall j | 1 <= j < |xs|
          ensures Sum(xs[..j]) == xs[0] + Sum(xs[1..][..j - 1])
        {
          assert xs[..j][1..] == xs[1..][..j - 1];
        }
      }
      assert xs[..0] == [];
      [init] + rest
  }

  /** `std::inclusive_scan` with `+`: entry j is `init` plus the elements up
      to and including position j. */
  function InclusiveScan(xs: seq<int>, init: int): (s: seq<int>)
    ensures |s| == |xs|
    ensures forall j :: 0 <= j < |xs| ==> s[j] == init + Sum(xs[..j + 1])
  {
    if |xs| == 0 then []
    else
      var rest := InclusiveScan(xs[1..], init + xs[0]);
      assert forall j :: 0 <= j < |xs| ==> Sum(xs[..j + 1]) == xs[0] + Sum(xs[1..][..j]) by {
        forall j | 0 <= j < |xs|
          ensures Sum(xs[..j + 1]) == xs[0] + Sum(xs[1..][..j])
        {
          assert xs[..j + 1][1..] == xs[1..][..j];
        }
      }
      [init + xs[0]] + rest
  }

  /** The weights `A_1, ..., A_d`: `std::iota` from 1, transformed by `A_k`. */
  function Weights(d: nat, r: int): (w: seq<int>)
    ensures |w| == d
    ensures r >= 1 ==> forall i :: 0 <= i < d ==> w[i] >= 1
  {
    seq(d, i requires 0 <= i < d => Ak(d, i + 1, r))
  }

  /** `A_k_sums`, as written: an exclusive scan of the weights from 0. */
  function AkSums(d: nat, r: int): (sums: seq<int>)
    ensures |sums| == d
    ensures forall j :: 0 <= j < d ==> sums[j] == Sum(Weights(d, r)[..j])
  {
    ExclusiveScan(Weights(d, r), 0)
  }

  lemma AkSumsExamples()
    ensures AkSums(2, 2) == [0, 12]
    ensures AkSums(3, 1) == [0, 6, 18]
  {
    AkExamples();
    var w2 := Weights(2, 2);
    assert w2[..1] == [12];
    var w3 := Weights(3, 1);
    assert w3[..1] == [6] && w3[..2] == [6, 12];
  }

  /** The last entry of `A_k_sums` stops short of the total weight by
      exactly `A_d`: the vertices' weight is never added. */
  lemma AkSumsOmitsVertices(d: nat, r: int)
    requires d >= 1
    ensures Last(AkSums(d, r)) + Ak(d, d, r) == Sum(Weights(d, r))
  {
    var w := Weights(d, r);
    assert w == w[..d - 1] + [w[d - 1]];
    SumAppend(w[..d - 1], [w[d - 1]]);
  }

  /** The first m weights add up to the face counts for k = 1 .. m. */
  lemma {:induction false} WeightsPrefixSum(d: nat, r: int, m: nat)
    requires m <= d
    ensures Sum(Weights(d, r)[..m]) == Terms(d, m + 1, 2, 2 * r - 1) - Ak(d, 0, r)
  {
    FaceCountsCoverCube(d, r);
    var w := Weights(d, r);
    if m == 0 {
      assert w[..0] == [];
    } else {
      WeightsPrefixSum(d, r, m - 1);
      assert w[..m] == w[..m - 1] + [w[m - 1]];
      SumAppend(w[..m - 1], [w[m - 1]]);
      assert Sum([w[m - 1]]) == w[m - 1] by {
        assert [w[m - 1]][1..] == [];
      }
    }
  }

  /** The weights together count the lattice points on the surface of the
      cube: the (2r + 1)^d points of the closed cube less the (2r - 1)^d
      strictly inside. */
  lemma WeightsCountSurface(d: nat, r: int)
    ensures Sum(Weights(d, r)) == Pow(2 * r + 1, d) - Pow(2 * r - 1, d)
  {
    WeightsPrefixSum(d, r, d);
    FaceCountsCoverCube(d, r);
    assert Weights(d, r)[..d] == Weights(d, r);
  }

  /** With positive weights both scans strictly increase. */
  lemma ScansIncrease(d: nat, r: int, i: nat, j: nat)
    requires r >= 1 && i < j < d
    ensures AkSums(d, r)[i] < AkSums(d, r)[j]
    ensures InclusiveScan(Weights(d, r), 0)[i] < InclusiveScan(Weights(d, r), 0)[j]
  {
    var w := Weights(d, r);
    SumPositiveGrows(w, i, j);
    SumPositiveGrows(w, i + 1, j + 1);
  }

  /** A longer prefix of positive numbers has a larger sum. */
  lemma {:induction false} SumPositiveGrows(w: seq<int>, i: nat, j: nat)
    requires i < j <= |w| && forall k :: 0 <= k < |w| ==> w[k] > 0
    ensures Sum(w[..i]) < Sum(w[..j])
    decreases j - i
  {
    assert w[..j] == w[..j - 1] + [w[j - 1]];
    SumAppend(w[..j - 1], [w[j - 1]]);
    if i < j - 1 {
      SumPositiveGrows(w, i, j - 1);
    }
  }

  // ---------------------------------------------------------------------
  // choose_k

  /** `std::lower_bound`: the first position whose entry is not below `u`,
      or the length when there is none. */
  function LowerBound(s: seq<int>, u: real): (i: nat)
    ensures i <= |s|
    ensures forall j :: 0 <= j < i ==> (s[j] as real) < u
    ensures i < |s| ==> (s[i] as real) >= u
  {
    if |s| == 0 then 0
    else if (s[0] as real) < u then 1 + LowerBound(s[1..], u)
    else 0
  }

  /** Any position before which every entry is below `u` and at which the
      entry is not is the one `lower_bound` finds. */
  lemma LowerBoundUnique(s: seq<int>, u: real, i: nat)
    requires i <= |s| && (forall j :: 0 <= j < i ==> (s[j] as real) < u)
    requires i < |s| ==> (s[i] as real) >= u
    ensures LowerBound(s, u) == i
  {
  }

  /** The value of `uniform_real_distribution{0, A_k_sums[d - 1]}`: in
      [0, total), or exactly 0 when the total is 0. */
  predicate ValidU(total: int, u: real)
  {
    0.0 <= u && (u < total as real || u == 0.0)
  }

  /** `choose_k`, as written: the `lower_bound` position of `u` in
      `A_k_sums`. It is never `d`, and it is 0 exactly when `u` is 0;
      otherwise `u` lies in the k-th interval of the sums. */
  function ChooseK(d: nat, r: int, u: real): (k: nat)
    requires d >= 1 && r >= 1 && ValidU(Last(AkSums(d, r)), u)
    ensures k <= d - 1
    ensures k == 0 <==> u == 0.0
    ensures k >= 1 ==> (AkSums(d, r)[k - 1] as real) < u <= (AkSums(d, r)[k] as real)
  {
    assert AkSums(d, r)[0] == 0 by {
      assert Weights(d, r)[..0] == [];
    }
    LowerBound(AkSums(d, r), u)
  }

  /** `choose_k` returns k exactly when `u` is 0 (for k = 0) or lies in the
      interval (A_k_sums[k - 1], A_k_sums[k]] (for 1 <= k <= d - 1). */
  lemma ChooseKIff(d: nat, r: int, u: real, k: nat)
    requires d >= 1 && r >= 1 && ValidU(Last(AkSums(d, r)), u)
    ensures ChooseK(d, r, u) == k <==>
      (k == 0 && u == 0.0)
      || (1 <= k <= d - 1 && (AkSums(d, r)[k - 1] as real) < u <= (AkSums(d, r)[k] as real))
  {
    var sums := AkSums(d, r);
    if 1 <= k <= d - 1 && (sums[k - 1] as real) < u <= (sums[k] as real) {
      forall j | 0 <= j < k
        ensures (sums[j] as real) < u
      {
        if j < k - 1 {
          ScansIncrease(d, r, j, k - 1);
        }
      }
      LowerBoundUnique(sums, u, k);
    }
  }

  // ---------------------------------------------------------------------
  // The shuffle

  function Swap(s: seq<int>, i: nat, j: nat): (t: seq<int>)
    requires i < |s| && j < |s|
    ensures |t| == |s| && multiset(t) == multiset(s)
  {
    if i == j then s
    else
      SwapMultiset(s, i, j);
      s[i := s[j]][j := s[i]]
  }

  /** Exchanging two entries keeps the multiset of entries. */
  lemma SwapMultiset(s: seq<int>, i: nat, j: nat)
    requires i < |s| && j < |s| && i != j
    ensures multiset(s[i := s[j]][j := s[i]]) == multiset(s)
  {
    var t := s[i := s[j]];
    assert multiset(t) == multiset(s) - multiset{s[i]} + multiset{s[j]};
    assert t[j] == s[j];
    assert multiset(t[j := s[i]]) == multiset(t) - multiset{s[j]} + multiset{s[i]};
  }

  /** The swaps of a forward Fisher–Yates pass from position `i` on are
      valid: the draw for position `i + t` is at most `i + t`. */
  predicate ValidSwaps(n: nat, i: nat, js: seq<nat>)
  {
    forall t :: 0 <= t < |js| && i + t < n ==> js[t] <= i + t
  }

  /** The draws after the first are valid from the next position on. */
  lemma ValidSwapsTail(n: nat, i: nat, js: seq<nat>)
    requires ValidSwaps(n, i, js) && |js| > 0
    ensures ValidSwaps(n, i + 1, js[1..])
  {
    forall t | 0 <= t < |js[1..]| && i + 1 + t < n
      ensures js[1..][t] <= i + 1 + t
    {
      assert js[1..][t] == js[t + 1];
    }
  }

  /** `std::shuffle`, as a forward Fisher–Yates pass: position i, for i from
      1 on, is exchanged with a drawn position in [0, i]. `None` when the
      draws run out. */
  function ShuffleFrom(s: seq<int>, i: nat, js: seq<nat>): (t: Option<seq<int>>)
    requires 1 <= i && ValidSwaps(|s|, i, js)
    ensures t.Some? ==> |t.value| == |s| && multiset(t.value) == multiset(s)
    ensures t.Some? <==> |js| >= |s| - i
    decreases |s| - i
  {
    if i >= |s| then Some(s)
    else if |js| == 0 then None
    else
      ValidSwapsTail(|s|, i, js);
      ShuffleFrom(Swap(s, i, js[0]), i + 1, js[1..])
  }

  function Shuffle(s: seq<int>, js: seq<nat>): (t: Option<seq<int>>)
    requires ValidSwaps(|s|, 1, js)
    ensures t.Some? ==> |t.value| == |s| && multiset(t.value) == multiset(s)
    ensures t.Some? <==> |js| >= |s| - 1
  {
    ShuffleFrom(s, 1, js)
  }

  // ---------------------------------------------------------------------
  // The sampler

  /** The draws of one call: the uniform value for `choose_k`, the sign
      coins for the k outer coordinates, the inner values for the others,
      and the shuffle's positions. */
  datatype LinfDraws = LinfDraws(u: real, signs: seq<Bit>, inner: seq<int>, swaps: seq<nat>)

  /** The inner values are draws of `uniform_int_distribution{1 - r, r - 1}`. */
  predicate InnerInRange(r: int, inner: seq<int>)
  {
    forall i :: 0 <= i < |inner| ==> 1 - r <= inner[i] <= r - 1
  }

  /** The coordinates before the shuffle: `r * random_sign` on the first k,
      inner values on the rest. */
  function Coordinates(r: int, d: nat, k: nat, signs: seq<Bit>, inner: seq<int>): (c: seq<int>)
    requires k <= d && |signs| >= k && |inner| >= d - k
    ensures |c| == d
  {
    seq(d, i requires 0 <= i < d => if i < k then r * RandomSign(signs[i]) else inner[i - k])
  }

  /** How many coordinates sit at ±r, counted on the multiset of coordinates
      so that it does not depend on their order. */
  function AtRadius(p: seq<int>, r: int): nat
  {
    multiset(p)[r] + multiset(p)[-r]
  }

  /** Entries that are all ±r are all at radius r. */
  lemma {:induction false} AtRadiusAll(s: seq<int>, r: int)
    requires r >= 1 && forall i :: 0 <= i < |s| ==> s[i] == r || s[i] == -r
    ensures AtRadius(s, r) == |s|
  {
    if |s| > 0 {
      assert s == [s[0]] + s[1..];
      AtRadiusAll(s[1..], r);
    }
  }

  /** Entries strictly inside the radius are never at it. */
  lemma AtRadiusNone(s: seq<int>, r: int)
    requires r >= 1 && forall i :: 0 <= i < |s| ==> Abs(s[i]) < r
    ensures AtRadius(s, r) == 0
  {
    assert r !in s && -r !in s;
  }

  /** The coordinates before the shuffle: each within the radius, exactly k
      of them at it, and the inner ones strictly inside. */
  lemma CoordinatesShape(r: int, d: nat, k: nat, signs: seq<Bit>, inner: seq<int>)
    requires r >= 1 && k <= d && |signs| >= k && |inner| >= d - k && InnerInRange(r, inner)
    ensures var c := Coordinates(r, d, k, signs, inner);
      (forall i :: 0 <= i < d ==> Abs(c[i]) <= r)
      && (forall i :: k <= i < d ==> Abs(c[i]) < r)
      && AtRadius(c, r) == k
  {
    var c := Coordinates(r, d, k, signs, inner);
    assert c == c[..k] + c[k..];
    AtRadiusAll(c[..k], r);
    AtRadiusNone(c[k..], r);
  }

  /** The shape every sampled point has when k coordinates are at ±r. */
  predicate CubePoint(p: seq<int>, r: int, d: nat, k: nat)
  {
    |p| == d && (forall i :: 0 <= i < d ==> Abs(p[i]) <= r) && AtRadius(p, r) == k
  }

  /** A rearrangement of values within r, k of them at ±r, is such a point
      too, and keeps any value strictly inside. */
  lemma RearrangedShape(c: seq<int>, p: seq<int>, r: int, d: nat, k: nat)
    requires CubePoint(c, r, d, k) && |p| == d && multiset(p) == multiset(c)
    ensures CubePoint(p, r, d, k)
    ensures (exists j :: 0 <= j < d && Abs(c[j]) < r) ==> exists i :: 0 <= i < d && Abs(p[i]) < r
  {
    forall i | 0 <= i < d
      ensures Abs(p[i]) <= r
    {
      assert p[i] in multiset(c);
    }
    if exists j :: 0 <= j < d && Abs(c[j]) < r {
      var j :| 0 <= j < d && Abs(c[j]) < r;
      assert c[j] in multiset(p);
    }
  }

  /** Shuffling the coordinates of a k-face keeps the shape. */
  lemma ShuffledShape(r: int, d: nat, k: nat, signs: seq<Bit>, inner: seq<int>, p: seq<int>)
    requires r >= 1 && k <= d && |signs| >= k && |inner| >= d - k && InnerInRange(r, inner)
    requires |p| == d && multiset(p) == multiset(Coordinates(r, d, k, signs, inner))
    ensures CubePoint(p, r, d, k)
    ensures k < d ==> exists i :: 0 <= i < d && Abs(p[i]) < r
  {
    var c := Coordinates(r, d, k, signs, inner);
    CoordinatesShape(r, d, k, signs, inner);
    if k < d {
      assert Abs(c[d - 1]) < r;
    }
    RearrangedShape(c, p, r, d, k);
  }

  /** `LinfDirection::operator()`, as written. A returned point has every
      coordinate within r and exactly k = `choose_k` coordinates at ±r, and
      since k < d at least one coordinate strictly inside: the sampler never
      returns a vertex of the cube. `None` when the draws run out. */
  function LinfDirection(r: int, d: nat, draws: LinfDraws): (p: Option<Point>)
    requires d >= 1 && r >= 1 && ValidU(Last(AkSums(d, r)), draws.u)
    requires InnerInRange(r, draws.inner) && ValidSwaps(d, 1, draws.swaps)
    ensures p.Some? ==> CubePoint(p.value, r, d, ChooseK(d, r, draws.u))
    ensures p.Some? ==> exists i :: 0 <= i < d && Abs(p.value[i]) < r
  {
    var k := ChooseK(d, r, draws.u);
    if |draws.signs| < k || |draws.inner| < d - k then None
    else
      var c := Coordinates(r, d, k, draws.signs, draws.inner);
      match Shuffle(c, draws.swaps)
      case None => None
      case Some(p) =>
        ShuffledShape(r, d, k, draws.signs, draws.inner, p);
        Some(p)
  }

  /** A point with every coordinate within r and some coordinate at ±r has
      L∞ norm r; one with none at ±r has a smaller norm. */
  lemma CubePointNorm(p: seq<int>, r: int, d: nat, k: nat)
    requires r >= 1 && d >= 1 && CubePoint(p, r, d, k)
    ensures LInftyNorm(p) <= r
    ensures LInftyNorm(p) == r <==> k >= 1
  {
    if k >= 1 {
      if r in multiset(p) {
        var i :| 0 <= i < |p| && p[i] == r;
      } else {
        assert -r in multiset(p);
        var i :| 0 <= i < |p| && p[i] == -r;
      }
    } else {
      assert r !in p && -r !in p;
    }
  }

  /** As written, a sampled point is on the cube surface exactly when the
      uniform draw is not 0; in one dimension k is always 0, so the point is
      never on it. */
  lemma LinfDirectionOnSurface(r: int, d: nat, draws: LinfDraws)
    requires d >= 1 && r >= 1 && ValidU(Last(AkSums(d, r)), draws.u)
    requires InnerInRange(r, draws.inner) && ValidSwaps(d, 1, draws.swaps)
    ensures var p := LinfDirection(r, d, draws);
      p.Some? ==>
        && LInftyNorm(p.value) <= r
        && (LInftyNorm(p.value) == r <==> draws.u != 0.0)
        && (d == 1 ==> LInftyNorm(p.value) < r)
  {
    var p := LinfDirection(r, d, draws);
    if p.Some? {
      CubePointNorm(p.value, r, d, ChooseK(d, r, draws.u));
    }
  }

  // ---------------------------------------------------------------------
  // The evidently intended sampler

  /** The intended weights' running totals: an inclusive scan, whose last
      entry is the total weight `A_1 + ... + A_d`. */
  function AkInclusiveSums(d: nat, r: int): (sums: seq<int>)
    ensures |sums| == d
    ensures d >= 1 ==> Last(sums) == Sum(Weights(d, r))
  {
    var s := InclusiveScan(Weights(d, r), 0);
    assert d >= 1 ==> Weights(d, r)[..d] == Weights(d, r);
    s
  }

  /** The intended `choose_k`: one plus the `lower_bound` position of `u`
      in the inclusive sums, so k ranges over 1..d. */
  function ChooseKIntended(d: nat, r: int, u: real): (k: nat)
    requires d >= 1 && r >= 1 && 0.0 <= u < Last(AkInclusiveSums(d, r)) as real
    ensures 1 <= k <= d
    ensures k >= 2 ==> (AkInclusiveSums(d, r)[k - 2] as real) < u
    ensures u <= (AkInclusiveSums(d, r)[k - 1] as real)
  {
    LowerBound(AkInclusiveSums(d, r), u) + 1
  }

  /** Consecutive inclusive sums differ by the weight in between, which is
      at least 1; the first is the first weight. */
  lemma InclusiveSumsStep(d: nat, r: int, k: nat)
    requires d >= 1 && r >= 1 && 1 <= k <= d
    ensures AkInclusiveSums(d, r)[0] >= 1
    ensures k >= 2 ==> AkInclusiveSums(d, r)[k - 1] >= AkInclusiveSums(d, r)[k - 2] + 1
  {
    var w := Weights(d, r);
    assert w[..1] == [w[0]];
    if k >= 2 {
      assert w[..k] == w[..k - 1] + [w[k - 1]];
      SumAppend(w[..k - 1], [w[k - 1]]);
      assert w[k - 1] == Ak(d, k, r);
    }
  }

  /** The inclusive sums are positive and at most the total. */
  lemma IntendedDrawInRange(d: nat, r: int, k: nat)
    requires d >= 1 && r >= 1 && 1 <= k <= d
    ensures 1 <= AkInclusiveSums(d, r)[k - 1] <= Last(AkInclusiveSums(d, r))
  {
    InclusiveSumsStep(d, r, 1);
    if k >= 2 {
      ScansIncrease(d, r, 0, k - 1);
    }
    if k < d {
      ScansIncrease(d, r, k - 1, d - 1);
    }
  }

  /** Every k in 1..d is chosen, by a `u` just below the k-th inclusive
      sum; in particular the vertices (k = d) are. */
  lemma ChooseKIntendedReachesAll(d: nat, r: int, k: nat)
    requires d >= 1 && r >= 1 && 1 <= k <= d
    ensures var u := AkInclusiveSums(d, r)[k - 1] as real - 0.5;
      0.0 <= u < Last(AkInclusiveSums(d, r)) as real && ChooseKIntended(d, r, u) == k
  {
    var sums := AkInclusiveSums(d, r);
    var u := sums[k - 1] as real - 0.5;
    IntendedDrawInRange(d, r, k);
    if k >= 2 {
      InclusiveSumsStep(d, r, k);
    }
    forall j | 0 <= j < k - 1
      ensures (sums[j] as real) < u
    {
      if j < k - 2 {
        ScansIncrease(d, r, j, k - 2);
      }
    }
    LowerBoundUnique(sums, u, k - 1);
  }

  /** The intended sampler: as written, but with the intended `choose_k`. */
  function LinfDirectionIntended(r: int, d: nat, draws: LinfDraws): (p: Option<Point>)
    requires d >= 1 && r >= 1 && 0.0 <= draws.u < Last(AkInclusiveSums(d, r)) as real
    requires InnerInRange(r, draws.inner) && ValidSwaps(d, 1, draws.swaps)
    ensures p.Some? ==> CubePoint(p.value, r, d, ChooseKIntended(d, r, draws.u))
    ensures p.Some? ==> LInftyNorm(p.value) == r
  {
    var k := ChooseKIntended(d, r, draws.u);
    if |draws.signs| < k || |draws.inner| < d - k then None
    else
      var c := Coordinates(r, d, k, draws.signs, draws.inner);
      match Shuffle(c, draws.swaps)
      case None => None
      case Some(p) =>
        ShuffledShape(r, d, k, draws.signs, draws.inner, p);
        CubePointNorm(p, r, d, k);
        Some(p)
  }
}

=== FILE: norms.dfy ===
/** The three norms of the walk library, their names, and the strict
    "norm exceeds a threshold" test the distance stoppers are built on. */
module Norms {
  import opened Results

  datatype Norm = L1 | L2 | LInfty

  function Abs(x: int): nat
  {
    if x < 0 then -x else x
  }

  function Max(a: nat, b: nat): nat
  {
    if a < b then b else a
  }

  /** `l1_norm`: the sum of the absolute values of the coordinates. */
  function L1Norm(xs: seq<int>): (r: nat)
    ensures r == 0 <==> forall i :: 0 <= i < |xs| ==> xs[i] == 0
    ensures forall i :: 0 <= i < |xs| ==> Abs(xs[i]) <= r
  {
    if |xs| == 0 then 0 else Abs(xs[0]) + L1Norm(xs[1..])
  }

  /** The square of `l2_norm`: the sum of the squares of the coordinates.
      The model compares this square instead of taking a square root. */
  function L2Sq(xs: seq<int>): (r: nat)
    ensures r == 0 <==> forall i :: 0 <= i < |xs| ==> xs[i] == 0
    ensures forall i :: 0 <= i < |xs| ==> xs[i] * xs[i] <= r
  {
    if |xs| == 0 then 0 else xs[0] * xs[0] + L2Sq(xs[1..])
  }

  /** `linfty_norm`: the largest absolute value of a coordinate. */
  function LInftyNorm(xs: seq<int>): (r: nat)
    ensures forall i :: 0 <= i < |xs| ==> Abs(xs[i]) <= r
    ensures |xs| > 0 ==> exists i :: 0 <= i < |xs| && Abs(xs[i]) == r
    ensures |xs| == 0 ==> r == 0
  {
    if |xs| == 0 then 0 else Max(Abs(xs[0]), LInftyNorm(xs[1..]))
  }

  /** `v` is the value `norm<n>` returns for the coordinates `xs`; for L2 that
      is the non-negative square root of the sum of squares. */
  ghost predicate IsNormValue(n: Norm, xs: seq<int>, v: real)
  {
    match n
    case L1 => v == L1Norm(xs) as real
    case L2 => v >= 0.0 && v * v == L2Sq(xs) as real
    case LInfty => v == LInftyNorm(xs) as real
  }

  /** `norm<n>(xs...) > distance`, decided without a square root: the L2 norm
      exceeds a negative distance always, and a non-negative one exactly when
      the sum of squares exceeds the distance squared. */
  function Exceeds(n: Norm, xs: seq<int>, distance: real): (e: bool)
    ensures forall v :: IsNormValue(n, xs, v) ==> (e <==> v > distance)
  {
    var e := match n
      case L1 => L1Norm(xs) as real > distance
      case L2 => distance < 0.0 || L2Sq(xs) as real > distance * distance
      case LInfty => LInftyNorm(xs) as real > distance;
    assert forall v :: IsNormValue(n, xs, v) ==> (e <==> v > distance) by {
      forall v | IsNormValue(n, xs, v)
        ensures e <==> v > distance
      {
        if n == L2 {
          SquaredComparison(L2Sq(xs) as real, v, distance);
        }
      }
    }
    e
  }

  /** For the non-negative root v of s, `v > distance` is decided by
      comparing s with the squared distance, unless the distance is
      negative. */
  lemma SquaredComparison(s: real, v: real, distance: real)
    requires v >= 0.0 && v * v == s
    ensures (distance < 0.0 || s > distance * distance) <==> v > distance
  {
    if distance >= 0.0 {
      if v > distance {
        SquareMonotone(distance, v);
      } else if v < distance {
        SquareMonotone(v, distance);
      }
    }
  }

  /** Squaring is strictly increasing on the non-negative reals. */
  lemma SquareMonotone(a: real, b: real)
    requires 0.0 <= a < b
    ensures a * a < b * b
  {
    assert a * (b - a) >= 0.0;
    assert b * (b - a) > 0.0;
  }

  /** `norm<n>` is a function: at most one value satisfies `IsNormValue`. */
  lemma NormValueUnique(n: Norm, xs: seq<int>, v: real, w: real)
    requires IsNormValue(n, xs, v) && IsNormValue(n, xs, w)
    ensures v == w
  {
    if n == L2 {
      if v < w {
        SquareMonotone(v, w);
      } else if w < v {
        SquareMonotone(w, v);
      }
    }
  }

  /** The integer test `Exceeds` agrees with comparing the norm's value
      itself against the distance, for every norm, with strict `>`. */
  lemma ExceedsIffNormAbove(n: Norm, xs: seq<int>, v: real, distance: real)
    requires IsNormValue(n, xs, v)
    ensures Exceeds(n, xs, distance) <==> v > distance
  {
  }

  /** Values of the norms on the coordinate lists of tests/utils.cpp. */
  lemma NormExamples()
    ensures L1Norm([1]) == 1 && L1Norm([1, -3]) == 4
    ensures LInftyNorm([1]) == 1 && LInftyNorm([3, -4]) == 4 && LInftyNorm([4, -4]) == 4
    ensures IsNormValue(L2, [1], 1.0) && IsNormValue(L2, [3, -4], 5.0)
  {
    assert L1Norm([-3]) == 3;
    assert LInftyNorm([-4]) == 4;
    assert L2Sq([-4]) == 16;
  }

  /** The four-dimensional L1 values of tests/points.cpp. */
  lemma ArrayPointL1Examples()
    ensures L1Norm([1, 1, 1, 1]) == 4 && L1Norm([-1, -1, -1, -1]) == 4 && L1Norm([-5, 3, 2, 2]) == 12
  {
    assert L1Norm([1]) == 1 && L1Norm([1, 1]) == 2 && L1Norm([1, 1, 1]) == 3;
    assert L1Norm([-1]) == 1 && L1Norm([-1, -1]) == 2 && L1Norm([-1, -1, -1]) == 3;
    assert L1Norm([2]) == 2 && L1Norm([2, 2]) == 4 && L1Norm([3, 2, 2]) == 7;
  }

  /** The four-dimensional L2 values of tests/points.cpp. */
  lemma ArrayPointL2Examples()
    ensures IsNormValue(L2, [1, 0, 0, 0], 1.0) && IsNormValue(L2, [-1, 0, 0, 0], 1.0)
    ensures IsNormValue(L2, [3, 4, 0, 0], 5.0) && IsNormValue(L2, [2, 3, 6, 0], 7.0)
    ensures IsNormValue(L2, [1, 2, 2, 4], 5.0)
  {
    assert L2Sq([0]) == 0 && L2Sq([0, 0]) == 0 && L2Sq([0, 0, 0]) == 0;
    assert L2Sq([1, 0, 0, 0]) == 1 && L2Sq([-1, 0, 0, 0]) == 1;
    assert L2Sq([4, 0, 0]) == 16 && L2Sq([3, 4, 0, 0]) == 25;
    assert L2Sq([6, 0]) == 36 && L2Sq([3, 6, 0]) == 45 && L2Sq([2, 3, 6, 0]) == 49;
    assert L2Sq([4]) == 16 && L2Sq([2, 4]) == 20 && L2Sq([2, 2, 4]) == 24 && L2Sq([1, 2, 2, 4]) == 25;
  }

  /** The four-dimensional L∞ values of tests/points.cpp. */
  lemma ArrayPointLInftyExamples()
    ensures LInftyNorm([1, 1, 1, 1]) == 1 && LInftyNorm([-1, -2, -3, -4]) == 4
    ensures LInftyNorm([-5, 3, 4, 2]) == 5
  {
    assert LInftyNorm([1]) == 1 && LInftyNorm([1, 1]) == 1 && LInftyNorm([1, 1, 1]) == 1;
    assert LInftyNorm([-4]) == 4 && LInftyNorm([-3, -4]) == 4 && LInftyNorm([-2, -3, -4]) == 4;
    assert LInftyNorm([2]) == 2 && LInftyNorm([4, 2]) == 4 && LInftyNorm([3, 4, 2]) == 4;
  }

  function NormToString(n: Norm): (s: string)
    ensures |s| >= 2 && s[0] == 'L'
  {
    match n
    case L1 => "L1"
    case L2 => "L2"
    case LInfty => "LINFTY"
  }

  /** `parse_norm`: only the three exact names are accepted. */
  function ParseNorm(s: string): (r: Result<Norm>)
    ensures r.Ok? <==> s == "L1" || s == "L2" || s == "LINFTY"
  {
    if s == "L1" then Ok(L1)
    else if s == "L2" then Ok(L2)
    else if s == "LINFTY" then Ok(LInfty)
    else InvalidArgument("Invalid norm type. Must be L1, L2, or LINFTY")
  }

  /** Parsing inverts printing ... */
  lemma ParseNormOfNormToString(n: Norm)
    ensures ParseNorm(NormToString(n)) == Ok(n)
  {
  }

  /** ... and printing inverts every successful parse. */
  lemma NormToStringOfParseNorm(s: string)
    requires ParseNorm(s).Ok?
    ensures NormToString(ParseNorm(s).value) == s
  {
  }

  /** The spelling "LINF" that the command line advertises is rejected. */
  lemma ParseNormRejectsLinf()
    ensures ParseNorm("LINF").InvalidArgument?
  {
  }
}

=== FILE: points.dfy ===
/** Integer lattice points of a fixed dimension: the one value type behind
    Point1D/2D/3D, ArrayPoint<Dim>, Lattice3D, LatticeND<N>, Lattice<D>,
    APoint<D> and TPoint3D. A point is its coordinate list; the dimension is
    the list's length. */
module Points {
  import opened Results
  import opened Norms

  type Point = seq<int>

  /** `zero<P>()` / `Zero()`: the origin of dimension d. */
  function Zero(d: nat): (z: Point)
    ensures |z| == d
    ensures L1Norm(z) == 0
  {
    seq(d, _ => 0)
  }

  /** `operator+` / `add`: coordinate-wise sum. */
  function Add(a: Point, b: Point): (c: Point)
    requires |a| == |b|
    ensures |c| == |a|
    ensures forall i :: 0 <= i < |a| ==> c[i] - b[i] == a[i]
  {
    seq(|a|, i requires 0 <= i < |a| => a[i] + b[i])
  }

  /** Coordinate-wise difference; used to state what a step moved by. */
  function Sub(a: Point, b: Point): (c: Point)
    requires |a| == |b|
    ensures |c| == |a|
  {
    seq(|a|, i requires 0 <= i < |a| => a[i] - b[i])
  }

  /** `constructor<P>`: builds a point of dimension d from a coordinate
      buffer, throwing `invalid_argument` unless the buffer has d entries. */
  function Construct(d: nat, buffer: seq<int>): (r: Result<Point>)
    ensures r.Ok? <==> |buffer| == d
    ensures r.Ok? ==> |r.value| == d && forall i :: 0 <= i < d ==> r.value[i] == buffer[i]
  {
    if |buffer| != d then InvalidArgument("constructor requires exactly dim elements")
    else Ok(buffer)
  }

  /** Constructing from a point's own coordinates gives the point back. */
  lemma ConstructRoundTrip(p: Point)
    ensures Construct(|p|, p) == Ok(p)
  {
  }

  /** The origin is an additive identity on both sides. */
  lemma AddZero(p: Point)
    ensures Add(p, Zero(|p|)) == p
    ensures Add(Zero(|p|), p) == p
  {
  }

  lemma AddCommutes(a: Point, b: Point)
    requires |a| == |b|
    ensures Add(a, b) == Add(b, a)
  {
  }

  lemma AddAssociates(a: Point, b: Point, c: Point)
    requires |a| == |b| == |c|
    ensures Add(Add(a, b), c) == Add(a, Add(b, c))
  {
  }

  /** Subtracting what was added recovers the step. */
  lemma SubAdd(p: Point, e: Point)
    requires |p| == |e|
    ensures Sub(Add(p, e), p) == e
  {
  }

  /** The checks of tests/points.cpp on sums, the origin and construction in
      one to four dimensions, and the rejection of a buffer of the wrong
      length by the `ArrayPoint` constructor. */
  lemma PointExamples()
    ensures Add([1], [1]) == [2] && Add([1], [-1]) == Zero(1)
    ensures Add([1, 1], [1, 2]) == [2, 3] && Add([1, 1], [-1, -1]) == Zero(2)
    ensures Add([1, 1, 1], [1, 2, 3]) == [2, 3, 4] && Add([1, 1, 1], [-1, -1, -1]) == Zero(3)
    ensures Add([1, 1, 1, 1], [1, 2, 3, 4]) == [2, 3, 4, 5]
    ensures Add([1, 1, 1, 1], [-1, -1, -1, -1]) == Zero(4)
    ensures Zero(1) == [0] && Zero(2) == [0, 0]
    ensures Zero(3) == [0, 0, 0] && Zero(4) == [0, 0, 0, 0]
    ensures Construct(1, [1]) == Ok([1]) && Construct(2, [1, 2]) == Ok([1, 2])
    ensures Construct(3, [1, 2, 3]) == Ok([1, 2, 3])
    ensures Construct(3, [1, 2]).InvalidArgument?
  {
    assert Add([1], [-1]) == [0];
    assert Add([1, 1], [-1, -1]) == [0, 0];
    assert Add([1, 1, 1], [-1, -1, -1]) == [0, 0, 0];
    assert Add([1, 1, 1, 1], [-1, -1, -1, -1]) == [0, 0, 0, 0];
  }

  /** The unit direction table of dimension d, `LatticeND<N>::Directions`,
      `Lattice<D>::Directions` and `directions<D>()`: entry i is +1 (i even)
      or -1 (i odd) at coordinate i/2 and 0 elsewhere. */
  function UnitDirections(d: nat): (dirs: seq<Point>)
    ensures |dirs| == 2 * d
    ensures forall i :: 0 <= i < 2 * d ==> |dirs[i]| == d
  {
    seq(2 * d, i requires 0 <= i < 2 * d =>
      seq(d, j requires 0 <= j < d => if j == i / 2 then (if i % 2 == 0 then 1 else -1) else 0))
  }

  /** A direction array of `slots` entries whose first 2d entries are the unit
      directions and whose remaining entries are left as the origin, as in the
      8-slot arrays of Point2D, Point3D and Lattice3D. */
  function SlotDirections(d: nat, slots: nat): (dirs: seq<Point>)
    requires slots >= 2 * d
    ensures |dirs| == slots
    ensures dirs[..2 * d] == UnitDirections(d)
    ensures forall i :: 2 * d <= i < slots ==> dirs[i] == Zero(d)
  {
    UnitDirections(d) + seq(slots - 2 * d, _ => Zero(d))
  }

  /** A point with a single non-zero coordinate equal to +1 or -1. */
  ghost predicate IsUnitVector(p: Point)
  {
    exists j :: 0 <= j < |p| && Abs(p[j]) == 1 && forall k :: 0 <= k < |p| && k != j ==> p[k] == 0
  }

  lemma L1OfSingleNonZero(p: Point, j: nat)
    requires j < |p|
    requires forall k :: 0 <= k < |p| && k != j ==> p[k] == 0
    ensures L1Norm(p) == Abs(p[j])
    decreases |p|
  {
    if j > 0 {
      L1OfSingleNonZero(p[1..], j - 1);
    } else {
      assert L1Norm(p[1..]) == 0;
    }
  }

  /** The direction table holds exactly the unit vectors of dimension d: each
      entry has one coordinate ±1, and every such vector is an entry. */
  lemma UnitDirectionsAreUnitVectors(d: nat, p: Point)
    ensures p in UnitDirections(d) <==> |p| == d && IsUnitVector(p)
  {
    var dirs := UnitDirections(d);
    if p in dirs {
      var i :| 0 <= i < |dirs| && dirs[i] == p;
      assert Abs(p[i / 2]) == 1;
    }
    if |p| == d && IsUnitVector(p) {
      var j :| 0 <= j < |p| && Abs(p[j]) == 1 && forall k :: 0 <= k < |p| && k != j ==> p[k] == 0;
      var i := if p[j] == 1 then 2 * j else 2 * j + 1;
      assert dirs[i] == p;
    }
  }

  /** Every entry of the unit table moves exactly one step in L1, and the table
      is closed under negation: entries 2m and 2m+1 are opposite. */
  lemma UnitDirectionsStepOne(d: nat, i: nat)
    requires i < 2 * d
    ensures L1Norm(UnitDirections(d)[i]) == 1
    ensures L2Sq(UnitDirections(d)[i]) == 1
    ensures Add(UnitDirections(d)[i], UnitDirections(d)[if i % 2 == 0 then i + 1 else i - 1]) == Zero(d)
  {
    var e := UnitDirections(d)[i];
    L1OfSingleNonZero(e, i / 2);
    L2OfSingleNonZero(e, i / 2);
  }

  lemma L2OfSingleNonZero(p: Point, j: nat)
    requires j < |p|
    requires forall k :: 0 <= k < |p| && k != j ==> p[k] == 0
    ensures L2Sq(p) == p[j] * p[j]
    decreases |p|
  {
    if j > 0 {
      L2OfSingleNonZero(p[1..], j - 1);
    } else {
      assert L2Sq(p[1..]) == 0;
    }
  }

  /** Compares a direction table with a literal one, entry by entry. */
  lemma UnitDirectionsLiteral(d: nat, lit: seq<Point>)
    requires |lit| == 2 * d
    requires forall i :: 0 <= i < 2 * d ==> |lit[i]| == d
    requires forall i, j :: 0 <= i < 2 * d && 0 <= j < d ==>
      lit[i][j] == (if j == i / 2 then (if i % 2 == 0 then 1 else -1) else 0)
    ensures UnitDirections(d) == lit
  {
    var u := UnitDirections(d);
    forall i | 0 <= i < 2 * d
      ensures u[i] == lit[i]
    {
      assert forall j :: 0 <= j < d ==> u[i][j] == lit[i][j];
    }
  }

  /** `Point1D::Directions()` is exactly {+1} and {-1}. */
  lemma Point1DDirections()
    ensures UnitDirections(1) == [[1], [-1]]
  {
    UnitDirectionsLiteral(1, [[1], [-1]]);
  }

  /** `Point2D::Directions()`: the four unit vectors, then four origins. */
  lemma Point2DDirections()
    ensures SlotDirections(2, 8) == [[1, 0], [-1, 0], [0, 1], [0, -1], [0, 0], [0, 0], [0, 0], [0, 0]]
  {
    UnitDirectionsLiteral(2, [[1, 0], [-1, 0], [0, 1], [0, -1]]);
    assert Zero(2) == [0, 0];
  }

  /** `Point3D::Directions()` and `Lattice3D::Directions()`: the six unit
      vectors, then two origins. */
  lemma Point3DDirections()
    ensures SlotDirections(3, 8) == [[1, 0, 0], [-1, 0, 0], [0, 1, 0], [0, -1, 0], [0, 0, 1], [0, 0, -1], [0, 0, 0], [0, 0, 0]]
  {
    TupleDirections();
    assert Zero(3) == [0, 0, 0];
  }

  /** The TPoint3D `directions()` vector is exactly the six unit vectors. */
  lemma TupleDirections()
    ensures UnitDirections(3) == [[1, 0, 0], [-1, 0, 0], [0, 1, 0], [0, -1, 0], [0, 0, 1], [0, 0, -1]]
  {
    UnitDirectionsLiteral(3, [[1, 0, 0], [-1, 0, 0], [0, 1, 0], [0, -1, 0], [0, 0, 1], [0, 0, -1]]);
  }

  /** Two points of equal dimension one L1 step apart. */
  ghost predicate Adjacent(p: Point, q: Point)
  {
    |p| == |q| && L1Norm(Sub(q, p)) == 1
  }

  /** The nearest-neighbour `Stepper` of the lattice: move by the table entry
      the draw `j` (uniform over the table's indices) selects. */
  function LatticeStep(dirs: seq<Point>, p: Point, j: nat): (q: Point)
    requires j < |dirs| && |dirs[j]| == |p|
    ensures |q| == |p| && Sub(q, p) == dirs[j]
  {
    SubAdd(p, dirs[j]);
    Add(p, dirs[j])
  }

  /** With an 8-slot table of dimension d, a draw below 2d moves to a lattice
      neighbour, and a draw into the zero padding leaves the point in place. */
  lemma LatticeStepNeighbourOrStay(d: nat, slots: nat, p: Point, j: nat)
    requires slots >= 2 * d && j < slots && |p| == d
    ensures j < 2 * d ==> Adjacent(p, LatticeStep(SlotDirections(d, slots), p, j))
    ensures j >= 2 * d ==> LatticeStep(SlotDirections(d, slots), p, j) == p
  {
    var dirs := SlotDirections(d, slots);
    if j < 2 * d {
      assert dirs[j] == dirs[..2 * d][j] == UnitDirections(d)[j];
      UnitDirectionsStepOne(d, j);
    } else {
      AddZero(p);
    }
  }
}

=== FILE: results.dfy ===
/** Failure-carrying result types shared by the whole model. */
module Results {

  /** A value that may be missing: the model's way of saying that a finite
      supply of random draws ran out before the sampler finished. */
  datatype Option<+T> = None | Some(value: T)

  /** The outcome of an operation that throws `std::invalid_argument` on bad
      input: either the value or the exception's message. */
  datatype Result<+T> = Ok(value: T) | InvalidArgument(message: string)
}

=== FILE: sequences.dfy ===
/** Small facts about sequences used throughout the model. */
module Sequences {

  function Last<T>(s: seq<T>): T
    requires |s| > 0
  {
    s[|s| - 1]
  }

  /** The set of elements of a sequence. */
  function Elems<T>(s: seq<T>): set<T>
  {
    set x | x in s
  }

  /** No element occurs twice. */
  predicate NoDup<T(==)>(s: seq<T>)
  {
    forall i, j :: 0 <= i < j < |s| ==> s[i] != s[j]
  }

  /** The position of the (unique, when `NoDup(s)`) occurrence of `x`. */
  function IndexOf<T(==)>(s: seq<T>, x: T): (i: nat)
    requires x in s
    ensures i < |s| && s[i] == x
    ensures forall j :: 0 <= j < i ==> s[j] != x
  {
    if s[0] == x then 0 else 1 + IndexOf(s[1..], x)
  }

  /** The sum of a sequence of integers, folded from the front. */
  function Sum(s: seq<int>): int
  {
    if |s| == 0 then 0 else s[0] + Sum(s[1..])
  }

  lemma {:induction false} SumAppend(a: seq<int>, b: seq<int>)
    ensures Sum(a + b) == Sum(a) + Sum(b)
  {
    if |a| == 0 {
      assert a + b == b;
    } else {
      assert (a + b)[1..] == a[1..] + b;
      SumAppend(a[1..], b);
    }
  }

  /** A prefix one longer adds the next element to the sum. */
  lemma SumSnoc(xs: seq<int>, i: nat)
    requires i < |xs|
    ensures Sum(xs[..i + 1]) == Sum(xs[..i]) + xs[i]
  {
    assert xs[..i + 1] == xs[..i] + [xs[i]];
    SumAppend(xs[..i], [xs[i]]);
    assert [xs[i]][1..] == [];
  }

  /** Taking one element out of a sum. */
  lemma {:induction false} SumRemove(b: seq<int>, j: nat)
    requires j < |b|
    ensures Sum(b) == b[j] + Sum(b[..j] + b[j + 1..])
  {
    if j == 0 {
      assert b[..0] + b[1..] == b[1..];
    } else {
      var t := b[1..];
      SumRemove(t, j - 1);
      var c := b[..j] + b[j + 1..];
      assert c[0] == b[0] && c[1..] == t[..j - 1] + t[j..];
    }
  }

  lemma MultisetRemove<T>(b: seq<T>, j: nat)
    requires j < |b|
    ensures multiset(b[..j] + b[j + 1..]) == multiset(b) - multiset{b[j]}
  {
    assert b == b[..j] + [b[j]] + b[j + 1..];
  }

  /** Some position of `b` holds any value of its multiset. */
  lemma InMultiset(b: seq<int>, x: int) returns (j: nat)
    requires x in multiset(b)
    ensures j < |b| && b[j] == x
  {
    assert x in b;
    j :| 0 <= j < |b| && b[j] == x;
  }

  /** Summing does not depend on the order of the summands. */
  lemma {:induction false} SumPermutation(a: seq<int>, b: seq<int>)
    requires multiset(a) == multiset(b)
    ensures Sum(a) == Sum(b)
    decreases |a|
  {
    if |a| == 0 {
      assert |b| == |multiset(b)| == 0;
    } else {
      var j := InMultiset(b, a[0]);
      var rest := b[..j] + b[j + 1..];
      MultisetRemove(b, j);
      MultisetRemove(a, 0);
      assert a[..0] + a[1..] == a[1..];
      assert multiset(a[1..]) == multiset(rest);
      SumPermutation(a[1..], rest);
      SumRemove(b, j);
    }
  }

  /** A sequence has at most as many distinct values as elements, and
      exactly as many when it has no duplicates. */
  lemma {:induction false} ElemsCard<T>(s: seq<T>)
    ensures |Elems(s)| <= |s|
    ensures NoDup(s) ==> |Elems(s)| == |s|
  {
    if |s| > 0 {
      assert Elems(s) == {s[0]} + Elems(s[1..]);
      ElemsCard(s[1..]);
      assert NoDup(s) ==> NoDup(s[1..]) && s[0] !in Elems(s[1..]);
    }
  }
}

=== FILE: signs.dfy ===
/** `random_sign`: a fair coin turned into a sign. The coin is passed in as
    an explicit draw of `uniform_int_distribution{0, 1}`. */
module Signs {
  import opened Norms

  /** One draw of a `{0, 1}` coin. */
  type Bit = b: int | 0 <= b <= 1

  /** `2 * coin - 1`. */
  function RandomSign(b: Bit): (s: int)
    ensures s == 1 || s == -1
    ensures s == 1 <==> b == 1
  {
    2 * b - 1
  }

  /** The coin that gives a wanted sign; `x` is non-negative exactly when
      its sign is +1. */
  function SignBit(x: int): (b: Bit)
    ensures b == 1 <==> x >= 0
  {
    if x < 0 then 0 else 1
  }

  /** Both signs occur, and each comes from exactly one coin value: the sign
      of `x` times its absolute value gives `x` back. */
  lemma RandomSignSignBit(x: int)
    ensures RandomSign(SignBit(x)) * Abs(x) == x
    ensures RandomSign(SignBit(x)) == (if x < 0 then -1 else 1)
  {
  }
}

=== FILE: sorting.dfy ===
/** `std::sort` on a short array of integers, as a functional insertion sort,
    and the facts about sorted sequences the direction samplers rely on. */
module Sorting {
  import opened Sequences

  predicate Sorted(s: seq<int>)
  {
    forall i, j :: 0 <= i <= j < |s| ==> s[i] <= s[j]
  }

  predicate StrictlySorted(s: seq<int>)
  {
    forall i, j :: 0 <= i < j < |s| ==> s[i] < s[j]
  }

  /** Inserting into a sorted sequence keeps it sorted and adds exactly `x`;
      the new first element is `x` or the old first element. */
  function Insert(x: int, s: seq<int>): (t: seq<int>)
    requires Sorted(s)
    ensures Sorted(t) && multiset(t) == multiset(s) + multiset{x}
    ensures |t| == |s| + 1
    ensures t[0] == x || (|s| > 0 && t[0] == s[0])
  {
    if |s| == 0 then [x]
    else if x <= s[0] then [x] + s
    else
      var rest := Insert(x, s[1..]);
      assert s == [s[0]] + s[1..];
      assert s[0] <= rest[0];
      SortedCons(s[0], rest);
      [s[0]] + rest
  }

  /** A sorted sequence stays sorted under a new head no larger than its
      first element. */
  lemma SortedCons(x: int, s: seq<int>)
    requires Sorted(s) && |s| > 0 && x <= s[0]
    ensures Sorted([x] + s)
  {
  }

  /** `std::sort`: a sorted permutation of the input. */
  function Sort(s: seq<int>): (t: seq<int>)
    ensures Sorted(t) && multiset(t) == multiset(s)
    ensures |t| == |s|
  {
    if |s| == 0 then []
    else
      assert s == [s[0]] + s[1..];
      Insert(s[0], Sort(s[1..]))
  }

  /** Sorting an already sorted sequence leaves it as it is. */
  lemma {:induction false} SortOfSorted(s: seq<int>)
    requires Sorted(s)
    ensures Sort(s) == s
  {
    if |s| > 0 {
      assert Sorted(s[1..]);
      SortOfSorted(s[1..]);
      assert s == [s[0]] + s[1..];
    }
  }

  /** A value occurring at two positions occurs at least twice. */
  lemma DuplicateCount(t: seq<int>, i: nat, j: nat)
    requires i < j < |t| && t[i] == t[j]
    ensures multiset(t)[t[i]] >= 2
  {
    assert t == t[..j] + [t[j]] + t[j + 1..];
    assert t[i] in multiset(t[..j]);
  }

  /** In a duplicate-free sequence every value occurs at most once. */
  lemma {:induction false} NoDupCount(s: seq<int>, x: int)
    requires NoDup(s)
    ensures multiset(s)[x] <= 1
  {
    if |s| > 0 {
      assert s == [s[0]] + s[1..];
      assert NoDup(s[1..]);
      NoDupCount(s[1..], x);
      if s[0] == x {
        assert x !in s[1..];
      }
    }
  }

  /** Rearranging a duplicate-free sequence leaves it duplicate-free; so the
      sorted form of distinct values is strictly increasing. */
  lemma SortedDistinct(s: seq<int>, t: seq<int>)
    requires NoDup(s) && multiset(t) == multiset(s) && Sorted(t)
    ensures NoDup(t) && StrictlySorted(t)
  {
    forall i, j | 0 <= i < j < |t|
      ensures t[i] != t[j]
    {
      if t[i] == t[j] {
        DuplicateCount(t, i, j);
        NoDupCount(s, t[i]);
      }
    }
  }
}

=== FILE: stoppers.dfy ===
/** Stopping predicates over a walk: by length, or by the distance of the
    walk's last point from the origin. */
module Stoppers {
  import opened Sequences
  import opened Norms
  import opened Points

  datatype Stopper =
    /** `LengthStopper{length}` (stopper.hpp and lerw.hpp). */
    | LengthStopper(length: nat)
    /** `DistanceStopper<N>{distance}` (stopper.hpp). */
    | DistanceStopper(norm: Norm, distance: real)
    /** The older `L1DistanceStopper{distance}` (lerw.hpp). */
    | L1DistanceStopper(distance: real)
    /** The older `L2DistanceStopper`, which keeps the squared distance. */
    | L2DistanceStopper(distanceSq: real)

  /** The `L2DistanceStopper(distance)` constructor squares its argument. */
  function MakeL2DistanceStopper(distance: real): (s: Stopper)
    ensures s.L2DistanceStopper? && s.distanceSq >= 0.0
  {
    L2DistanceStopper(distance * distance)
  }

  /** The stopper's verdict on a walk. Every distance stopper reads
      `walk.back()`, so it needs a non-empty walk. */
  function Stops(s: Stopper, walk: seq<Point>): (stop: bool)
    requires s.LengthStopper? || |walk| > 0
    ensures s.DistanceStopper? ==>
      forall v :: IsNormValue(s.norm, Last(walk), v) ==> (stop <==> v > s.distance)
    ensures s.L1DistanceStopper? ==>
      forall v :: IsNormValue(L1, Last(walk), v) ==> (stop <==> v > s.distance)
  {
    match s
    case LengthStopper(length) => |walk| > length
    case DistanceStopper(n, distance) => Exceeds(n, Last(walk), distance)
    case L1DistanceStopper(distance) => L1Norm(Last(walk)) as real > distance
    case L2DistanceStopper(distanceSq) => L2Sq(Last(walk)) as real > distanceSq
  }

  /** The stopper as the generators consume it. The second argument, the
      number of earlier stopper calls, is ignored by every real stopper;
      the generators only ever pass non-empty walks. */
  function AsWalkStopper(s: Stopper): (stop: (seq<Point>, nat) -> bool)
    ensures forall w: seq<Point>, c: nat :: |w| > 0 ==> (stop(w, c) <==> Stops(s, w))
  {
    (w: seq<Point>, c: nat) => (s.LengthStopper? || |w| > 0) && Stops(s, w)
  }

  /** A distance stopper stops exactly when the value of `norm<N>` on the last
      point is strictly greater than the distance. */
  lemma DistanceStopperIffNormAbove(n: Norm, distance: real, walk: seq<Point>, v: real)
    requires |walk| > 0 && IsNormValue(n, Last(walk), v)
    ensures Stops(DistanceStopper(n, distance), walk) <==> v > distance
  {
    ExceedsIffNormAbove(n, Last(walk), v, distance);
  }

  /** The comparison is strict: a last point exactly at the threshold does not
      stop the walk, whatever the norm. */
  lemma AtThresholdDoesNotStop(n: Norm, walk: seq<Point>, v: real)
    requires |walk| > 0 && IsNormValue(n, Last(walk), v)
    ensures !Stops(DistanceStopper(n, v), walk)
  {
    DistanceStopperIffNormAbove(n, v, walk, v);
  }

  /** Only the last point matters to a distance stopper. */
  lemma DistanceStopperReadsLastOnly(s: Stopper, w1: seq<Point>, w2: seq<Point>)
    requires !s.LengthStopper? && |w1| > 0 && |w2| > 0 && Last(w1) == Last(w2)
    ensures Stops(s, w1) == Stops(s, w2)
  {
  }

  /** A walk that ends at the origin is never stopped by a distance stopper
      with a non-negative distance. */
  lemma OriginNeverStops(s: Stopper, walk: seq<Point>)
    requires !s.LengthStopper? && |walk| > 0 && Last(walk) == Zero(|Last(walk)|)
    requires s.DistanceStopper? ==> s.distance >= 0.0
    requires s.L1DistanceStopper? ==> s.distance >= 0.0
    requires s.L2DistanceStopper? ==> s.distanceSq >= 0.0
    ensures !Stops(s, walk)
  {
    var z := Last(walk);
    assert forall i :: 0 <= i < |z| ==> z[i] == 0;
    assert L1Norm(z) == 0 && L2Sq(z) == 0;
    assert LInftyNorm(z) == 0 by {
      if |z| > 0 {
        var i :| 0 <= i < |z| && Abs(z[i]) == LInftyNorm(z);
      }
    }
  }

  /** The older L2 stopper, which compares the sum of squares with the stored
      squared distance, agrees with `DistanceStopper<L2>` for every
      non-negative distance; likewise the older L1 stopper. */
  lemma OlderStoppersAgree(distance: real, walk: seq<Point>)
    requires distance >= 0.0 && |walk| > 0
    ensures Stops(MakeL2DistanceStopper(distance), walk) == Stops(DistanceStopper(L2, distance), walk)
    ensures Stops(L1DistanceStopper(distance), walk) == Stops(DistanceStopper(L1, distance), walk)
  {
  }

  /** The older L1 stopper agrees with `DistanceStopper<L1>` for every
      distance, negative ones included. */
  lemma OlderL1StopperAgrees(distance: real, walk: seq<Point>)
    requires |walk| > 0
    ensures Stops(L1DistanceStopper(distance), walk) == Stops(DistanceStopper(L1, distance), walk)
  {
  }

  /** Below 0 the L2 pair part ways: `DistanceStopper<L2>` stops every walk,
      since a norm is never below a negative distance, while the older
      stopper has squared the distance away and behaves as for its absolute
      value, so it lets a walk at the origin go on. */
  lemma OlderL2StopperNegativeDistance(distance: real, walk: seq<Point>)
    requires distance < 0.0 && |walk| > 0
    ensures Stops(DistanceStopper(L2, distance), walk)
    ensures Stops(MakeL2DistanceStopper(distance), walk) == Stops(MakeL2DistanceStopper(-distance), walk)
    ensures Last(walk) == Zero(|Last(walk)|) ==> !Stops(MakeL2DistanceStopper(distance), walk)
  {
    var z := Last(walk);
    if z == Zero(|z|) {
      assert forall i :: 0 <= i < |z| ==> z[i] == 0;
      assert L2Sq(z) == 0;
    }
  }

  /** The cases of tests/stopper.cpp. */
  lemma StopperExamples()
    ensures !Stops(LengthStopper(5), []) && !Stops(LengthStopper(5), [[0], [1], [2]])
    ensures !Stops(LengthStopper(5), [[0], [1], [2], [3], [4]])
    ensures Stops(LengthStopper(5), [[0], [1], [2], [3], [4], [5]])
    ensures !Stops(DistanceStopper(L2, 3.0), [[0, 0], [2, 2]])
    ensures !Stops(DistanceStopper(L2, 3.0), [[0, 0], [3, 0]])
    ensures Stops(DistanceStopper(L2, 3.0), [[0, 0], [2, 2], [4, 0]])
    ensures !Stops(DistanceStopper(L1, 4.0), [[0, 0], [2, 1]])
    ensures !Stops(DistanceStopper(L1, 4.0), [[0, 0], [2, 2]])
    ensures Stops(DistanceStopper(L1, 4.0), [[0, 0], [3, 2]])
    ensures !Stops(DistanceStopper(LInfty, 2.0), [[0, 0], [1, 1]])
    ensures !Stops(DistanceStopper(LInfty, 2.0), [[0, 0], [2, 1]])
    ensures Stops(DistanceStopper(LInfty, 2.0), [[0, 0], [3, 2]])
    ensures !Stops(DistanceStopper(L2, 3.0), [[0, 0]])
    ensures !Stops(DistanceStopper(L1, 4.0), [[0, 0]])
    ensures !Stops(DistanceStopper(LInfty, 2.0), [[0, 0]])
  {
    assert L2Sq([0, 0]) == 0 && L1Norm([0, 0]) == 0 && LInftyNorm([0, 0]) == 0;
    assert L2Sq([2]) == 4 && L2Sq([0]) == 0;
    assert L1Norm([1]) == 1 && L1Norm([2]) == 2;
    assert LInftyNorm([1]) == 1 && LInftyNorm([2]) == 2;
  }
}

=== FILE: walks.dfy ===
/** The two walk generators: the plain random walk, and the loop-erased one
    that keeps its walk self-avoiding by chronological loop erasure.

    Both are generic in the point type `P` and the draw type `D`. The stepper
    maps the walk's last point and one draw to the proposed next point; the
    draws are a finite sequence, so a run either stops or runs out of draws.
    The stopper sees the walk and the number of stopper calls made before,
    which lets counting mocks be expressed; real stoppers ignore the count. */
module Walks {
  import opened Sequences
  import opened Norms
  import opened Points
  import opened Stoppers

  datatype Outcome<P> =
    /** The stopper accepted `walk` after `steps` stepper calls. */
    | Done(walk: seq<P>, steps: nat)
    /** The draws ran out before the stopper accepted. */
    | OutOfDraws(walk: seq<P>)

  /** Plain generator from a given walk. Each stopper call but the first
      follows exactly one append, so the number of earlier stopper calls is
      `|walk| - 1`. */
  function PlainFrom<P, D>(stop: (seq<P>, nat) -> bool, step: (P, D) -> P,
                           walk: seq<P>, draws: seq<D>): (o: Outcome<P>)
    requires |walk| > 0
    ensures |walk| <= |o.walk| <= |walk| + |draws|
    ensures o.walk[..|walk|] == walk
    ensures forall i :: |walk| - 1 <= i < |o.walk| - 1 ==>
      o.walk[i + 1] == step(o.walk[i], draws[i - (|walk| - 1)])
    ensures forall n :: |walk| <= n < |o.walk| ==> !stop(o.walk[..n], n - 1)
    ensures o.Done? ==> o.steps == |o.walk| - 1 && stop(o.walk, o.steps)
    ensures o.OutOfDraws? ==> |o.walk| == |walk| + |draws| && !stop(o.walk, |o.walk| - 1)
    decreases |draws|
  {
    if stop(walk, |walk| - 1) then Done(walk, |walk| - 1)
    else if |draws| == 0 then OutOfDraws(walk)
    else
      var next := walk + [step(Last(walk), draws[0])];
      var o := PlainFrom(stop, step, next, draws[1..]);
      assert o.walk[..|walk|] == o.walk[..|next|][..|walk|];
      assert o.walk[..|walk|] == walk;
      o
  }

  /** `RandomWalkGenerator`: starting from `[zero]`, append `step(last)` while
      the stopper says no. The result is determined entirely: it begins at
      zero, every point is the stepper's image of the one before under the
      next draw, the stopper refused every proper prefix and accepted the
      final walk. */
  function PlainGenerate<P, D>(stop: (seq<P>, nat) -> bool, step: (P, D) -> P,
                               zero: P, draws: seq<D>): (o: Outcome<P>)
    ensures 1 <= |o.walk| <= |draws| + 1 && o.walk[0] == zero
    ensures forall i :: 0 <= i < |o.walk| - 1 ==> o.walk[i + 1] == step(o.walk[i], draws[i])
    ensures forall n :: 1 <= n < |o.walk| ==> !stop(o.walk[..n], n - 1)
    ensures o.Done? ==> o.steps == |o.walk| - 1 && stop(o.walk, o.steps)
    ensures o.OutOfDraws? ==> |o.walk| == |draws| + 1 && !stop(o.walk, |draws|)
  {
    var o := PlainFrom(stop, step, [zero], draws);
    assert o.walk[..1] == [zero];
    o
  }

  /** With a length stopper of bound L and at least L draws, the plain
      generator always finishes, with exactly L + 1 points and L steps. */
  lemma PlainLengthStopper<P, D>(stop: (seq<P>, nat) -> bool, step: (P, D) -> P,
                                 zero: P, draws: seq<D>, bound: nat)
    requires forall w: seq<P>, c: nat :: stop(w, c) == (|w| > bound)
    requires |draws| >= bound
    ensures PlainGenerate(stop, step, zero, draws).Done?
    ensures |PlainGenerate(stop, step, zero, draws).walk| == bound + 1
    ensures PlainGenerate(stop, step, zero, draws).steps == bound
  {
    var o := PlainGenerate(stop, step, zero, draws);
    if |o.walk| > 1 {
      // the stopper refused the walk one point short of the result
      assert !stop(o.walk[..|o.walk| - 1], |o.walk| - 2);
    }
  }

  // ---------------------------------------------------------------------
  // Loop erasure

  /** The loop-erased generator's state invariant: a non-empty walk without
      repeated points, mirrored exactly by the visited set. */
  ghost predicate Mirrors<P>(walk: seq<P>, visited: set<P>)
  {
    |walk| > 0 && NoDup(walk) && visited == Elems(walk)
  }

  /** The walk cut back so that it ends at the first occurrence of `p`. */
  function Erase<P(==)>(walk: seq<P>, p: P): (w: seq<P>)
    requires p in walk
    ensures 0 < |w| <= |walk| && w == walk[..|w|] && Last(w) == p
    ensures p !in w[..|w| - 1]
  {
    walk[..IndexOf(walk, p) + 1]
  }

  /** One iteration of the loop-erased generator after the stopper said no:
      a fresh proposal is appended and recorded; a revisited one cuts the walk
      back to its earlier occurrence, and exactly the cut points leave the
      visited set. The proposal is not appended a second time. */
  function Transition<P(==)>(walk: seq<P>, visited: set<P>, proposed: P): (r: (seq<P>, set<P>))
    requires Mirrors(walk, visited)
    ensures Mirrors(r.0, r.1)
    ensures r.0[0] == walk[0] && |r.0| <= |walk| + 1
    ensures proposed !in visited ==> r.0 == walk + [proposed] && r.1 == visited + {proposed}
    ensures proposed in visited ==>
      |r.0| <= |walk| && r.0 == walk[..|r.0|] && Last(r.0) == proposed
      && r.1 == visited - Elems(walk[|r.0|..])
  {
    if proposed !in visited then
      var w := walk + [proposed];
      assert Elems(w) == visited + {proposed};
      (w, visited + {proposed})
    else
      var w := Erase(walk, proposed);
      ErasedMirror(walk, w);
      (w, visited - Elems(walk[|w|..]))
  }

  /** A non-empty prefix of a duplicate-free walk is duplicate-free, and its
      points are those of the walk minus those cut off. */
  lemma ErasedMirror<P>(walk: seq<P>, w: seq<P>)
    requires NoDup(walk) && 0 < |w| <= |walk| && w == walk[..|w|]
    ensures NoDup(w)
    ensures Elems(w) == Elems(walk) - Elems(walk[|w|..])
  {
    assert walk == w + walk[|w|..];
  }

  /** The loop-erased generator from a given state; `calls` counts the
      stopper calls made so far, which equals the stepper calls made. */
  function LoopErasedFrom<P(==), D>(stop: (seq<P>, nat) -> bool, step: (P, D) -> P,
                                    walk: seq<P>, visited: set<P>, draws: seq<D>, calls: nat): (o: Outcome<P>)
    requires Mirrors(walk, visited)
    ensures |o.walk| > 0 && NoDup(o.walk) && o.walk[0] == walk[0]
    ensures o.Done? ==> calls <= o.steps <= calls + |draws| && stop(o.walk, o.steps)
    ensures o.OutOfDraws? ==> !stop(o.walk, calls + |draws|)
    decreases |draws|
  {
    if stop(walk, calls) then Done(walk, calls)
    else if |draws| == 0 then OutOfDraws(walk)
    else
      var next := Transition(walk, visited, step(Last(walk), draws[0]));
      LoopErasedFrom(stop, step, next.0, next.1, draws[1..], calls + 1)
  }

  /** `LoopErasedRandomWalkGenerator`: the walk and the visited set both start
      as the origin alone. Whatever the stepper and stopper, the result is
      self-avoiding, starts at zero, and is only reported done when the
      stopper accepts it. */
  function LoopErasedRun<P(==), D>(stop: (seq<P>, nat) -> bool, step: (P, D) -> P,
                                   zero: P, draws: seq<D>): (o: Outcome<P>)
    ensures |o.walk| > 0 && NoDup(o.walk) && o.walk[0] == zero
    ensures o.Done? ==> o.steps <= |draws| && stop(o.walk, o.steps)
    ensures o.OutOfDraws? ==> !stop(o.walk, |draws|)
  {
    assert Elems([zero]) == {zero};
    LoopErasedFrom(stop, step, [zero], {zero}, draws, 0)
  }

  /** The pop loop: remove the last point from the walk and from the visited
      set until the walk ends at the revisited proposal. It terminates because
      the proposal is in the walk; exactly the removed points leave the
      visited set. */
  method PopUntil<P(==)>(walk: seq<P>, visited: set<P>, proposed: P) returns (w: seq<P>, v: set<P>)
    requires Mirrors(walk, visited) && proposed in visited
    ensures w == Erase(walk, proposed)
    ensures v == visited - Elems(walk[|w|..])
    ensures Mirrors(w, v)
  {
    w, v := walk, visited;
    while Last(w) != proposed
      invariant 0 < |w| <= |walk| && w == walk[..|w|]
      invariant proposed in w
      invariant v == visited - Elems(walk[|w|..])
      decreases |w|
    {
      assert walk[|w| - 1..] == [Last(w)] + walk[|w|..];
      assert Elems(walk[|w| - 1..]) == {Last(w)} + Elems(walk[|w|..]);
      v := v - {Last(w)};
      w := w[..|w| - 1];
    }
    var i := IndexOf(walk, proposed);
    assert walk[|w| - 1] == proposed;
    assert i == |w| - 1;
    ErasedMirror(walk, w);
  }

  /** The generator's loop written as the source writes it, with the pop loop
      above; it computes exactly the functional definition. */
  method LoopErasedGenerate<P(==), D>(stop: (seq<P>, nat) -> bool, step: (P, D) -> P,
                                      zero: P, draws: seq<D>) returns (o: Outcome<P>)
    ensures o == LoopErasedRun(stop, step, zero, draws)
    ensures NoDup(o.walk) && o.walk[0] == zero
  {
    var walk := [zero];
    var visited := {zero};
    var i := 0;
    assert Elems(walk) == visited;
    while !stop(walk, i) && i < |draws|
      invariant 0 <= i <= |draws|
      invariant Mirrors(walk, visited)
      invariant LoopErasedFrom(stop, step, walk, visited, draws[i..], i) == LoopErasedRun(stop, step, zero, draws)
      decreases |draws| - i
    {
      var proposed := step(walk[|walk| - 1], draws[i]);
      assert draws[i..][0] == draws[i] && draws[i..][1..] == draws[i + 1..];
      if proposed !in visited {
        walk := walk + [proposed];
        visited := visited + {proposed};
      } else {
        walk, visited := PopUntil(walk, visited, proposed);
      }
      i := i + 1;
    }
    if stop(walk, i) {
      o := Done(walk, i);
    } else {
      o := OutOfDraws(walk);
    }
  }

  /** With a length stopper of bound L, the loop-erased walk only ever grows
      by one point between stopper calls, so when it finishes it has exactly
      L + 1 points. */
  lemma {:induction false} LoopErasedFromLengthStopper<P, D>(
    stop: (seq<P>, nat) -> bool, step: (P, D) -> P,
    walk: seq<P>, visited: set<P>, draws: seq<D>, calls: nat, bound: nat)
    requires forall w: seq<P>, c: nat :: stop(w, c) == (|w| > bound)
    requires Mirrors(walk, visited) && |walk| <= bound + 1
    ensures LoopErasedFrom(stop, step, walk, visited, draws, calls).Done? ==>
      |LoopErasedFrom(stop, step, walk, visited, draws, calls).walk| == bound + 1
    ensures |LoopErasedFrom(stop, step, walk, visited, draws, calls).walk| <= bound + 1
    decreases |draws|
  {
    if !stop(walk, calls) && |draws| > 0 {
      var next := Transition(walk, visited, step(Last(walk), draws[0]));
      LoopErasedFromLengthStopper(stop, step, next.0, next.1, draws[1..], calls + 1, bound);
    }
  }

  lemma LoopErasedLengthStopper<P, D>(stop: (seq<P>, nat) -> bool, step: (P, D) -> P,
                                          zero: P, draws: seq<D>, bound: nat)
    requires forall w: seq<P>, c: nat :: stop(w, c) == (|w| > bound)
    ensures LoopErasedRun(stop, step, zero, draws).Done? ==>
      |LoopErasedRun(stop, step, zero, draws).walk| == bound + 1
  {
    assert Elems([zero]) == {zero};
    LoopErasedFromLengthStopper(stop, step, [zero], {zero}, draws, 0, bound);
  }

  /** Consecutive points of the walk are related by `adj`. */
  ghost predicate Chain<P>(walk: seq<P>, adj: (P, P) -> bool)
  {
    forall i :: 0 <= i < |walk| - 1 ==> adj(walk[i], walk[i + 1])
  }

  /** If every step either stays put or moves to an `adj`-neighbour, the
      loop-erased walk is an `adj`-chain: erasing a loop keeps a prefix, and a
      proposal equal to the last point is already visited, so it is never
      appended. */
  lemma {:induction false} LoopErasedFromChain<P, D>(
    stop: (seq<P>, nat) -> bool, step: (P, D) -> P, adj: (P, P) -> bool,
    walk: seq<P>, visited: set<P>, draws: seq<D>, calls: nat)
    requires forall p: P, x: D :: step(p, x) == p || adj(p, step(p, x))
    requires Mirrors(walk, visited) && Chain(walk, adj)
    ensures Chain(LoopErasedFrom(stop, step, walk, visited, draws, calls).walk, adj)
    decreases |draws|
  {
    if !stop(walk, calls) && |draws| > 0 {
      var proposed := step(Last(walk), draws[0]);
      var next := Transition(walk, visited, proposed);
      if proposed !in visited {
        assert Last(walk) in visited;
        assert adj(Last(walk), proposed);
      }
      LoopErasedFromChain(stop, step, adj, next.0, next.1, draws[1..], calls + 1);
    }
  }

  /** The stepper of the lattice: a draw selects an entry of a direction table
      of `slots` entries over dimension d. Draws outside the table and points
      of another dimension, which the source never produces, leave the point
      where it is. */
  function LatticeStepper(d: nat, slots: nat): (step: (Point, nat) -> Point)
    requires slots >= 2 * d
    ensures forall p: Point, j: nat :: j < slots && |p| == d ==> step(p, j) == LatticeStep(SlotDirections(d, slots), p, j)
  {
    (p: Point, j: nat) =>
      if j < slots && |p| == d then LatticeStep(SlotDirections(d, slots), p, j) else p
  }

  /** A proposal equal to the walk's last point, which the lattice stepper
      makes on a draw into the zero padding of its table, changes nothing:
      the pop loop stops at once. */
  lemma StayLeavesStateUnchanged<P>(walk: seq<P>, visited: set<P>)
    requires Mirrors(walk, visited)
    ensures Transition(walk, visited, Last(walk)) == (walk, visited)
  {
    var p := Last(walk);
    assert walk[|walk| - 1] == p;
    var w := Erase(walk, p);
    assert |w| == |walk| by {
      if |w| < |walk| {
        assert false;
      }
    }
    assert p in visited;
    assert w == walk;
    assert Elems(walk[|walk|..]) == {};
  }

  /** A loop-erased walk driven by the lattice stepper is a self-avoiding
      nearest-neighbour path from the origin. */
  lemma LatticeLoopErasedWalkIsNearestNeighbour(d: nat, slots: nat, stop: (seq<Point>, nat) -> bool, draws: seq<nat>)
    requires slots >= 2 * d
    ensures var o := LoopErasedRun(stop, LatticeStepper(d, slots), Zero(d), draws);
      NoDup(o.walk) && o.walk[0] == Zero(d)
      && forall i :: 0 <= i < |o.walk| - 1 ==> Adjacent(o.walk[i], o.walk[i + 1])
  {
    var step := LatticeStepper(d, slots);
    var adj := (p: Point, q: Point) => |p| == d && Adjacent(p, q);
    forall p: Point, j: nat
      ensures step(p, j) == p || adj(p, step(p, j))
    {
      if j < slots && |p| == d {
        LatticeStepNeighbourOrStay(d, slots, p, j);
      }
    }
    assert Elems([Zero(d)]) == {Zero(d)};
    LoopErasedFromChain(stop, step, adj, [Zero(d)], {Zero(d)}, draws, 0);
  }

  // ---------------------------------------------------------------------
  // The mocks of tests/generator.cpp

  /** `MockStopper{maxSteps}`: its call number c (counting from 0) answers
      `c + 1 > maxSteps`, whatever the walk. */
  function MockStopper(maxSteps: nat): (stop: (seq<int>, nat) -> bool)
    ensures forall w: seq<int>, c: nat :: stop(w, c) <==> c >= maxSteps
  {
    (w: seq<int>, c: nat) => c + 1 > maxSteps
  }

  /** `MockStepper`: the next point is the previous one plus one. */
  function Increment(): (step: (int, nat) -> int)
    ensures forall p: int, x: nat :: step(p, x) - p == 1
  {
    (p: int, x: nat) => p + 1
  }

  /** C++'s `a / m` for m > 0: the quotient truncated toward zero. */
  function TruncQuot(a: int, m: int): int
    requires m > 0
  {
    if a >= 0 then a / m else -((-a) / m)
  }

  /** C++'s `a % m` for m > 0: the remainder of the truncated division, so
      it takes the sign of a (Dafny's `%` is never negative). */
  function TruncRem(a: int, m: int): (r: int)
    requires m > 0
    ensures a >= 0 ==> 0 <= r < m
    ensures a < 0 ==> -m < r <= 0
  {
    if a >= 0 then a % m else -((-a) % m)
  }

  /** The C++ identity `(a / m) * m + a % m == a` for the truncated pair. */
  lemma TruncDivision(a: int, m: int)
    requires m > 0
    ensures a == m * TruncQuot(a, m) + TruncRem(a, m)
  {
    if a < 0 {
      var x := -a;
      assert x == m * (x / m) + x % m;
      assert m * (-(x / m)) == -(m * (x / m));
    }
  }

  /** `LoopingMockStepper`: `(prev + 1) % 4` with C++'s remainder, which walks
      the cycle 0, 1, 2, 3, 0, ... from any point at least -1 and stays in
      -3..0 below that. */
  function Looping(): (step: (int, nat) -> int)
    ensures forall p: int, x: nat :: -1 <= p ==> 0 <= step(p, x) < 4
    ensures forall p: int, x: nat :: p < -1 ==> -4 < step(p, x) <= 0
  {
    (p: int, x: nat) => TruncRem(p + 1, 4)
  }

  /** The remainder follows the sign of the dividend: from -3 the mock
      stepper goes to -2, not to 2. */
  lemma LoopingNegative()
    ensures Looping()(-3, 0) == -2 && Looping()(-5, 0) == 0
    ensures Looping()(3, 0) == 0 && Looping()(-1, 0) == 0
  {
  }

  function Iota(n: nat): (s: seq<int>)
    ensures |s| == n && forall i :: 0 <= i < n ==> s[i] == i
  {
    seq(n, i => i)
  }

  lemma {:induction false} CountsUp(w: seq<int>)
    requires |w| > 0 && w[0] == 0
    requires forall i :: 0 <= i < |w| - 1 ==> w[i + 1] == w[i] + 1
    ensures w == Iota(|w|)
    decreases |w|
  {
    if |w| > 1 {
      CountsUp(w[..|w| - 1]);
      assert w[|w| - 2] == w[..|w| - 1][|w| - 2] == |w| - 2;
      assert w == w[..|w| - 1] + [w[|w| - 1]];
    }
  }

  /** The plain generator with `MockStepper` and `MockStopper{m}` returns
      0, 1, ..., m after exactly m stepper calls. */
  lemma PlainMockWalk(m: nat, draws: seq<nat>)
    requires |draws| >= m
    ensures PlainGenerate(MockStopper(m), Increment(), 0, draws) == Done(Iota(m + 1), m)
  {
    var o := PlainGenerate(MockStopper(m), Increment(), 0, draws);
    if |o.walk| > 1 {
      assert !MockStopper(m)(o.walk[..|o.walk| - 1], |o.walk| - 2);
    }
    CountsUp(o.walk);
  }

  /** The loop-erased generator with `MockStepper` never revisits a point,
      so it too returns 0, 1, ..., m. */
  lemma {:induction false} LoopErasedMockWalkFrom(m: nat, draws: seq<nat>, calls: nat)
    requires calls <= m && |draws| >= m - calls
    ensures Mirrors(Iota(calls + 1), Elems(Iota(calls + 1)))
    ensures LoopErasedFrom(MockStopper(m), Increment(), Iota(calls + 1), Elems(Iota(calls + 1)), draws, calls)
      == Done(Iota(m + 1), m)
    decreases m - calls
  {
    var walk := Iota(calls + 1);
    if calls < m {
      var proposed := Increment()(Last(walk), draws[0]);
      assert proposed == calls + 1 && proposed !in walk;
      assert walk + [proposed] == Iota(calls + 2);
      LoopErasedMockWalkFrom(m, draws[1..], calls + 1);
    }
  }

  lemma LoopErasedMockWalk(m: nat, draws: seq<nat>)
    requires |draws| >= m
    ensures LoopErasedRun(MockStopper(m), Increment(), 0, draws) == Done(Iota(m + 1), m)
  {
    LoopErasedMockWalkFrom(m, draws, 0);
    assert Iota(1) == [0];
  }

  /** One iteration of the loop-erased generator, unfolded. */
  lemma LoopErasedFromUnfold<P, D>(stop: (seq<P>, nat) -> bool, step: (P, D) -> P,
                                       walk: seq<P>, visited: set<P>, draws: seq<D>, calls: nat)
    requires Mirrors(walk, visited) && !stop(walk, calls) && |draws| > 0
    ensures var next := Transition(walk, visited, step(Last(walk), draws[0]));
      LoopErasedFrom(stop, step, walk, visited, draws, calls)
        == LoopErasedFrom(stop, step, next.0, next.1, draws[1..], calls + 1)
  {
  }

  /** The four transitions the looping mock goes through, one lemma each. */
  lemma LoopingTransition0()
    ensures Mirrors([0], {0}) && Transition([0], {0}, 1) == ([0, 1], {0, 1})
  {
    assert Elems([0]) == {0};
    var r := Transition([0], {0}, 1);
    assert r.0 == [0] + [1] == [0, 1];
    assert r.1 == {0} + {1} == {0, 1};
  }

  lemma LoopingTransition1()
    ensures Mirrors([0, 1], {0, 1}) && Transition([0, 1], {0, 1}, 2) == ([0, 1, 2], {0, 1, 2})
  {
    assert Elems([0, 1]) == {0, 1};
    var r := Transition([0, 1], {0, 1}, 2);
    assert r.0 == [0, 1] + [2] == [0, 1, 2];
    assert r.1 == {0, 1} + {2} == {0, 1, 2};
  }

  lemma LoopingTransition2()
    ensures Mirrors([0, 1, 2], {0, 1, 2}) && Transition([0, 1, 2], {0, 1, 2}, 3) == ([0, 1, 2, 3], {0, 1, 2, 3})
  {
    assert Elems([0, 1, 2]) == {0, 1, 2};
    var r := Transition([0, 1, 2], {0, 1, 2}, 3);
    assert r.0 == [0, 1, 2] + [3] == [0, 1, 2, 3];
    assert r.1 == {0, 1, 2} + {3} == {0, 1, 2, 3};
  }

  lemma LoopingTransition3()
    ensures Mirrors([0, 1, 2, 3], {0, 1, 2, 3}) && Transition([0, 1, 2, 3], {0, 1, 2, 3}, 0) == ([0], {0})
  {
    var w := [0, 1, 2, 3];
    assert Elems(w) == {0, 1, 2, 3};
    var r := Transition(w, {0, 1, 2, 3}, 0);
    assert w[..1] == [0];
    assert r.0 == [0];
    assert Elems(w[1..]) == {1, 2, 3};
    assert r.1 == {0, 1, 2, 3} - {1, 2, 3} == {0};
  }

  /** One iteration of the looping mock from a given state. */
  lemma LoopingMockStep(walk: seq<int>, visited: set<int>, draws: seq<nat>, calls: nat,
                        walk': seq<int>, visited': set<int>)
    requires Mirrors(walk, visited) && calls < 5 && |draws| > 0
    requires Transition(walk, visited, Looping()(Last(walk), draws[0])) == (walk', visited')
    ensures Mirrors(walk', visited')
    ensures LoopErasedFrom(MockStopper(5), Looping(), walk, visited, draws, calls)
      == LoopErasedFrom(MockStopper(5), Looping(), walk', visited', draws[1..], calls + 1)
  {
    LoopErasedFromUnfold(MockStopper(5), Looping(), walk, visited, draws, calls);
  }

  /** The looping mock's state after k of its five steps: the walk and the
      visited set. */
  function LoopingState(k: nat): (st: (seq<int>, set<int>))
    requires k <= 4
  {
    if k == 0 then ([0], {0})
    else if k == 1 then ([0, 1], {0, 1})
    else if k == 2 then ([0, 1, 2], {0, 1, 2})
    else if k == 3 then ([0, 1, 2, 3], {0, 1, 2, 3})
    else ([0], {0})
  }

  /** Each state is consistent, and the next proposal leads to the next
      state; after the fourth step the walk is back at [0]. */
  lemma LoopingStateStep(k: nat)
    requires k <= 4
    ensures Mirrors(LoopingState(k).0, LoopingState(k).1)
    ensures var st := LoopingState(k);
      Transition(st.0, st.1, TruncRem(Last(st.0) + 1, 4))
        == if k < 4 then LoopingState(k + 1) else ([0, 1], {0, 1})
  {
    if k == 0 || k == 4 {
      assert TruncRem(0 + 1, 4) == 1;
      LoopingTransition0();
    } else if k == 1 {
      assert TruncRem(1 + 1, 4) == 2;
      LoopingTransition1();
    } else if k == 2 {
      assert TruncRem(2 + 1, 4) == 3;
      LoopingTransition2();
    } else {
      assert TruncRem(3 + 1, 4) == 0;
      LoopingTransition3();
    }
  }

  /** At the fifth call the stopper accepts the walk [0, 1]. */
  lemma LoopingFinish(d: seq<nat>)
    ensures Mirrors([0, 1], {0, 1})
      && LoopErasedFrom(MockStopper(5), Looping(), [0, 1], {0, 1}, d, 5) == Done([0, 1], 5)
  {
    LoopingTransition1();
  }

  /** The looping mock's run from its k-th stopper call on. */
  lemma {:induction false} LoopingMockFrom(k: nat, d: seq<nat>)
    requires k <= 4 && |d| >= 5 - k
    ensures Mirrors(LoopingState(k).0, LoopingState(k).1)
      && LoopErasedFrom(MockStopper(5), Looping(), LoopingState(k).0, LoopingState(k).1, d, k) == Done([0, 1], 5)
    decreases 4 - k
  {
    var st := LoopingState(k);
    LoopingStateStep(k);
    var next := if k < 4 then LoopingState(k + 1) else ([0, 1], {0, 1});
    assert Looping()(Last(st.0), d[0]) == TruncRem(Last(st.0) + 1, 4);
    LoopingMockStep(st.0, st.1, d, k, next.0, next.1);
    if k < 4 {
      LoopingMockFrom(k + 1, d[1..]);
    } else {
      LoopingFinish(d[1..]);
    }
  }

  /** With `LoopingMockStepper` and `MockStopper{5}` the proposals are
      1, 2, 3, 0, 1: the loop 1, 2, 3 is erased when 0 comes back, and the
      result is [0, 1]. */
  lemma LoopingMockWalk(draws: seq<nat>)
    requires |draws| >= 5
    ensures LoopErasedRun(MockStopper(5), Looping(), 0, draws) == Done([0, 1], 5)
  {
    LoopingMockFrom(0, draws);
    assert Elems([0]) == {0};
  }

  /** Whatever the stepper, `MockStopper{0}` returns the origin alone. */
  lemma ZeroStepsGiveOrigin(step: (int, nat) -> int, draws: seq<nat>)
    ensures PlainGenerate(MockStopper(0), step, 0, draws) == Done([0], 0)
    ensures LoopErasedRun(MockStopper(0), step, 0, draws) == Done([0], 0)
  {
    assert Elems([0]) == {0};
  }
}
